=== FILE: README.md ===
# LAN lobby networking, modelled in Dafny

This project models the sequential state handling of a small pygame LAN
game's networking layer and the pure pieces around it:

- **Newline framing** (`Framing`). Every receive loop does the same thing:
  append a chunk to a buffer, split at the first `'\n'`, and hand each
  complete line on. The model is the pure function `Extract`. It is proved
  to be the unique split of its buffer, and to be insensitive to how the
  stream was cut into reads. The same loop appears in `network/server.py`,
  `network/client.py`, `NETWORKING/server.py`, `NETWORKING/server1.py` and
  `NETWORKING/client.py`.
- **Session registry** (`Registry`). This is the accept loop of both game
  servers. It covers the id counter, the `[0, 0]` start position, the `init`
  reply and the `update_players` fan-out.
- **Lobby manager** (`Lobby`). This is `LobbyServerExtension` of
  `network/server.py`:
  - create, list, join request and join decision;
  - the `process_message` dispatch table;
  - the per-session line loop.
- **Discovery** (`Discovery`). This covers the announcement the broadcaster
  builds from its payload, the listener's registry keyed by `(ip, port)`,
  and the older fixed announcement.
- **Lobby client** (`Client`). This is `network/client.py`:
  - the connect and disconnect flags;
  - `send` validation;
  - the message builders;
  - the roster interpreter `process_message`;
  - the receive loop, which dies on the first exception.
- **Prototype chat server** (`Chat`). This is `NETWORKING/server1.py`:
  - transport validation;
  - `process_msg` validation;
  - the broadcast recipient set;
  - client-list removal on disconnect.
- **Prototype game server and client** (`Legacy`). These are
  `NETWORKING/server.py` and `NETWORKING/client.py`: a dispatch table whose
  only handler no longer exists, a receive loop that survives errors, and
  role-based server selection. The prototype client interprets each line
  with `Client.ProcessMessage`. Its `process_message` reads `player_id`
  before `position` and has no `LOBBY_CREATED` branch. On every path the
  state it leaves is still the same: the key reads change nothing before
  they raise, the missing branch only printed, and its loop swallows every
  error.
- **Profiles** (`Profiles`): `create_profile` defaults and the
  `update_stats` arithmetic on the loaded row.
- **Stack ADT** (`Stacks`), **scene dispatch** (`Scenes`, `main.py`) and the
  **start-menu cursor machine** (`Menu`, `start_menu.py`).
- **End-to-end** (`EndToEnd`). A request built by the client is handled by
  the server, and its effects reach discovery.

Conventions:

- Python exceptions are outcomes: `Result`, or an `Option<Error>` next to
  the state as it stood when the exception escaped. Partial effects are kept
  where the source has them.
- Sends are entries appended to an outbox of `Send(to, message)`.
- Decoded JSON is a `Json.Value`. A dict is `Obj(map<Value, Value>)`, so
  the integer keys the client writes into `players` can be represented.
  `json.loads` is a parameter `decode: string -> Option<Value>`, where
  `None` stands for `JSONDecodeError`.
- Fresh uuids, the clock and reachability of a peer are parameters.

Where the comments in the source and the code disagree, the model follows
the code:

- `handle_join_request` only resolves a lobby; the code that files a
  request is commented out. As a result, `handle_join_decision` can never
  find a request and every lobby lists `"0/4"`
  (`Lobby.RequestsNeverFiled`, `Lobby.OccupancyAlwaysZero`).
- In `NETWORKING/server.py` the dispatch table is built from
  `self.handle_move`, which is commented out. Every decodable message
  therefore raises `AttributeError`; none is "logged as unknown".
- `update_players` is still sent to sessions whose connection has ended,
  because `handle_client` never unregisters them.
- `NETWORKING/server1.py` leaves a client listed forever when its handler
  dies on a malformed broadcast. The `TypeError` from `**payload` escapes
  the loop before the cleanup.

## Model

| member | source | states |
|---|---|---|
| Transport.StripLeft | NETWORKING/server1.py:27 | the result is a suffix of the input; everything dropped is whitespace, and the result does not start with whitespace |
| Transport.StripRight | NETWORKING/server1.py:27 | the result is a prefix of the input; everything dropped is whitespace, and the result does not end with whitespace |
| Transport.Strip | network/server.py:85 | no longer than the input, and neither starting nor ending with whitespace |
| Transport.StripStartsAfterLead | network/server.py:85 | what is kept is a prefix of the input after its leading run of whitespace |
| Transport.StripDropsTrailing | network/server.py:85 | everything dropped after the kept part is whitespace |
| Transport.Upper | NETWORKING/server1.py:27 | same length; ASCII lower-case letters are mapped to upper case and every other character is kept |
| Transport.Select | network/server.py:85-93 | stream iff the stripped upper-cased name is "TCP", datagram iff it is "UDP", and ValueError exactly for every other name |
| Transport.LooseSpellingAccepted | NETWORKING/server.py:57-63 | " tcp\n" selects a stream socket and "Udp" a datagram socket |
| Transport.OtherNamesRejected | NETWORKING/client.py:60-71 | "", "TCPX" and "T CP" raise ValueError |
| Framing.FirstNewline | network/server.py:159-161 | the index of the first newline: it is a newline and none comes before it |
| Framing.SplitFirst | network/server.py:161 | `split('\n', 1)`: the head holds no newline, and head + "\n" + tail is the buffer |
| Framing.Extract | network/server.py:158-162 | the inner loop's output: newline-free lines and a newline-free remainder that concatenate, with a "\n" after each line, back to the buffer |
| Framing.Receive | network/client.py:136-145 | the buffered loop over reads: newline-free lines that, each followed by "\n", plus what stays buffered give back the old buffer and all the data read; after a read, nothing buffered holds a newline |
| Framing.ExtractUnique | network/server.py:159-161 | that decomposition is unique: extracting from lines joined with newlines plus a newline-free rest gives back exactly those lines and that rest |
| Framing.ReceiveIsExtract | network/client.py:142-145 | feeding chunks one by one into the buffered loop equals extracting once from the whole concatenated stream |
| Framing.ChunkBoundariesIrrelevant | network/server.py:158-162 | two ways of cutting the same stream into reads yield the same lines and the same remainder |
| Framing.FramesRoundTrip | NETWORKING/server1.py:126-130 | newline-free messages, each sent followed by "\n" and cut into reads in any way, are received exactly, with an empty buffer left |
| Framing.PartialReadBuffers | network/client.py:142-145 | a read that completes no line delivers nothing and stays buffered |
| Framing.Drain | NETWORKING/client.py:169-175 | the loop written with a `while`: its lines and rest are the unique split of the buffer, the same as `Extract` |
| Framing.FirstEnd | network/server.py:151-156 | the position of the first empty read or connection reset: no read before it ends the session |
| Framing.RunSession | network/server.py:148-166 | the lines handed over carry no newline; from a buffer without a newline, none is kept; the session is closed iff some read was empty or a reset |
| Framing.SessionLines | network/server.py:150-166 | a session processes exactly the lines of the reads before its first ending read, and it is closed iff such a read occurs |
| Framing.SessionStopsAtEnd | network/server.py:153-156 | reads after an empty read or a reset have no effect |
| Protocol.Fanout | network/server.py:198-203 | one send of the same message to each client, in order |
| Protocol.DeliveredExactly | network/server.py:199-203 | with some sends failing, exactly the sends to non-failing peers are delivered: one failure does not stop the rest |
| Protocol.DeliveredAppend | NETWORKING/server1.py:67-72 | delivery of two batches is the delivery of each batch in turn |
| Registry.Initial | network/server.py:97-99 | no clients, and the counter starts at 1 |
| Registry.Accept | network/server.py:120-146 | the new session gets the current counter as id and position [0,0], with other ids and positions kept; the counter grows by one; `init` carrying its id and the roster goes to the new session first; `update_players` reaches every registered client, the new one included |
| Registry.AcceptPreservesValid | network/server.py:125-126 | the registry invariant is kept: ids only for registered clients, below the counter, distinct, each with a position |
| Registry.AcceptAll | NETWORKING/server.py:82-108 | after accepting a batch, the counter has grown by its size, every new session has an id and earlier ids and positions are kept |
| Registry.AcceptAllIds | NETWORKING/server.py:87-88 | the i-th accepted session gets counter + i with position [0,0] |
| Registry.FromStartIdsConsecutive | NETWORKING/server.py:67 | from a fresh server, ids are positive and strictly increasing in accept order |
| Registry.EndSession | network/server.py:166-167 | ending a session closes only that connection and leaves clients, ids and positions unchanged |
| Registry.StaleSessionStillAddressed | network/server.py:198-203 | after a session ends, the next accept still sends `update_players` to it, and every open session still receives its copy |
| Discovery.Announce | network/server.py:55-65 | nothing is sent iff the payload is empty; otherwise exactly six fields with type "Init Lobby", lobby_name and host_name defaulted to "Lobby" and "Host", lobby_password read from the "password" key or "", and ip and port |
| Discovery.AnnounceNamed | network/server.py:55-65 | a payload holding only a lobby name and a host name is announced with those two values and an empty password |
| Discovery.LegacyAnnounce | NETWORKING/server.py:31-37 | the fixed announcement: exactly the fields type "Init Lobby", name, ip and port |
| Discovery.Empty | network/client.py:33 | an empty registry |
| Discovery.KeyOf | network/client.py:47-50 | a packet is filed under (ip, port) only if it is a dict of type "Init Lobby" with hashable ip and port; otherwise it is dropped |
| Discovery.Lobbies | network/client.py:54-56 | the listed lobbies are the stored records in first-seen order |
| Discovery.Receive | network/client.py:43-52 | an undecodable or unfiled packet changes nothing; a filed one is stored under its key, and the order only ever gains that key at its end |
| Discovery.ReceiveUpserts | network/client.py:43-52 | a valid announcement is stored under its key, replacing any earlier one, and keeps the order of a key already seen; malformed or undecodable packets change nothing |
| Discovery.FileNewKey | network/client.py:43-52 | storing a well-formed announcement under a key not seen before keeps the registry valid, with the key appended at the end of the order |
| Discovery.LobbiesAreRecords | network/client.py:54-56 | the list holds exactly the registry's values, one per distinct key |
| Discovery.RegistrySize | NETWORKING/client.py:48-49 | the listing has one entry per key |
| Discovery.LatestAnnouncementWins | NETWORKING/client.py:42-44 | of two announcements with the same key the later one is kept, and the registry does not grow |
| Discovery.AnnouncementFiled | network/server.py:58-65 | the broadcaster's announcement is filed by a listener under the broadcaster's own (ip, port) |
| Lobby.Initial | network/server.py:215-218 | no lobbies, and the announcement payload starts as the empty dict set at network/server.py:38 |
| Lobby.HostName | network/server.py:236-241 | "Host" when host_profile is missing or falsy; otherwise `host_profile[1]`, with its IndexError, KeyError or TypeError |
| Lobby.CreateLobby | network/server.py:220-254 | a missing name or password raises and changes nothing; otherwise exactly one lobby (name, password, caller as host, no players) is added at the new id; the call succeeds iff the host name can also be read, and then LOBBY_CREATED with the id and name goes to the caller and the announcement becomes the lobby name and host name; on error nothing is sent and the announcement is kept |
| Lobby.Decimal | network/server.py:263 | `str(n)`: non-empty, digits only, no leading zero |
| Lobby.DecimalRoundTrip | network/server.py:263 | parsing the rendered count gives back n |
| Lobby.Summaries | network/server.py:259-266 | one row per lobby in insertion order with its id, its name and occupancy "n/4" where n is its number of requests |
| Lobby.Occupancy | network/server.py:263 | the text ends in "/4" and its digits read back as the count |
| Lobby.GetLobbies | network/server.py:258-271 | one LOBBY_LIST reply of those rows to the caller and nothing else; state unchanged |
| Lobby.ResolveJoin | network/server.py:303-312 | a non-dict payload raises AttributeError; a null lobby_id picks the first lobby when there is one; a known id resolves to itself; any other hashable id resolves to no lobby, and an unhashable one raises; the result is always an existing lobby or none |
| Lobby.JoinRequest | network/server.py:276-312 | the lobby table and outbox never change; an error is raised iff resolving the lobby raises |
| Lobby.Target | network/server.py:318-328 | all three fields must be present; a request is targeted iff the lobby id and request id both exist |
| Lobby.JoinDecision | network/server.py:317-345 | an unknown lobby or request is a no-op; otherwise exactly one JOIN_RESULT goes to the requester, acceptance marks only that entry ACCEPTED, a decline deletes only that entry, and all other lobbies are untouched |
| Lobby.Route | network/server.py:172-184 | a line reaches a handler iff it decodes to a dict whose type is one of the four handler names |
| Lobby.Process | network/server.py:169-190 | invariant kept; undecodable lines and unrouted messages change nothing and send nothing; an unhashable type raises TypeError; only a create can add a lobby, and only under the drawn id |
| Lobby.RequestsNeverFiled | network/server.py:276-312 | no line ever files a join request, so a join decision is always a no-op |
| Lobby.OccupancyAlwaysZero | network/server.py:263 | with no requests filed, every listed lobby shows "0/4" |
| Lobby.ServeLines | network/server.py:159-164 | the session loop keeps the lobby invariant, with errors logged and processing continued |
| Lobby.SessionFilesNoRequests | network/server.py:159-164 | a whole session leaves every request table empty |
| Lobby.InvalidLineDropped | network/server.py:188-190 | an undecodable line leaves no trace: the rest of the session behaves as if it had never arrived |
| Lobby.CreateThenList | network/server.py:259-266 | right after a create, the list is the previous list plus the new lobby with occupancy "0/4" |
| Lobby.AlphaScenario | network/server.py:220-271 | creating "Alpha" on a fresh server and then listing yields exactly one row (id, "Alpha", "0/4") |
| Lobby.CreateAnnouncesWithoutPassword | network/server.py:243-246 | the announcement after a create carries the lobby name and host name, and its lobby_password is always "" |
| Lobby.JoinRequestInert | network/server.py:303-312 | a routed join_request changes no state and sends nothing |
| Client.Initial | network/client.py:80-82 | disconnected, no id and an empty roster |
| Client.Connect | network/client.py:104-116 | a no-op when already connected; otherwise host and port are recorded first; an address the socket cannot use then raises its TypeError, OverflowError or OSError, and a usable one connects iff the peer is reachable and the socket is not closed, raising OSError otherwise |
| Client.AddressError | network/client.py:111 | the socket checks the address before connecting, in this order: TypeError unless the host is a string with no NUL that is ASCII or IDNA-encodable; TypeError unless the port is an integer or bool; OverflowError outside the C int range; OSError when the name does not resolve; OverflowError outside 0..65535; nothing otherwise |
| Client.AddressCheckOrder | network/client.py:111 | a host with a NUL raises TypeError; an unresolvable name with port 70000 raises OSError, a resolvable one OverflowError; a port beyond the C int range raises OverflowError before resolution, and a null host TypeError before that |
| Client.Disconnect | network/client.py:118-121 | clears connected, and closes the socket iff it was connected |
| Client.ConnectOnce | network/client.py:106-107 | a second connect after a successful one changes nothing |
| Client.NoReconnectAfterDisconnect | network/client.py:118-121 | after a disconnect the closed socket cannot connect again: OSError for a well-formed address, the address error otherwise |
| Client.Send | network/client.py:126-130 | nothing happens when disconnected; when connected, a message without type or payload raises ValueError, and otherwise it is queued exactly once |
| Client.Package | network/client.py:132-133 | exactly the keys type and payload, holding the arguments |
| Client.PackagedAlwaysSent | network/client.py:126-133 | a packaged message always passes validation and is queued |
| Client.GetLobbiesRequest | network/client.py:192-194 | a message with exactly the keys type and payload: type get_lobbies and an empty payload |
| Client.CreateLobbyRequest | network/client.py:196-204 | built iff the form has lobby_name and passcode; the payload has exactly the keys lobby_name, lobby_password and host_profile, mapping passcode to lobby_password and the profile to host_profile |
| Client.JoinRequestRequest | network/client.py:206-214 | a join_request whose payload is a dict with exactly the keys lobby_id and player_name, holding the given values |
| Client.JoinDecisionRequest | network/client.py:216-225 | a join_decision whose payload is a dict with exactly the keys lobby_id, request_id and accepted, holding the given values |
| Client.SendCreateLobby | network/client.py:196-204 | a form lacking a field raises (KeyError for a dict form) and nothing changes; a disconnected client silently drops a complete request; a connected one appends exactly one lobby_create message carrying the form's name and passcode and the profile, with nothing else changed |
| Client.ProcessMessage | network/client.py:149-174 | invalid JSON changes nothing; a non-dict raises AttributeError; only my_id and players can change |
| Client.InitSetsIdAndRoster | network/client.py:155-157 | any init message whose payload holds player_id and players sets my_id and replaces the roster, whatever other keys it carries |
| Client.InitWithoutRosterSetsId | network/client.py:156-157 | an init payload with player_id but no players still sets my_id before raising KeyError |
| Client.UpdatePlayersReplaces | network/client.py:160-161 | any update_players message replaces the roster by its payload, or by None when it has none |
| Client.UpdatePositionWritesOne | network/client.py:164-165 | any update_position message whose payload holds a hashable player_id and a position changes only that player's entry of a dict roster |
| Client.OtherTypesIgnored | network/client.py:167-171 | a dict whose type is missing, LOBBY_CREATED or unknown changes nothing |
| Client.ReceiveLines | network/client.py:143-145 | processing lines never touches the connection flag or the outbox |
| Client.RaiseEndsReception | network/client.py:135-147 | once a line raises, the loop is dead and later lines have no effect |
| Client.InvalidJsonSkipped | network/client.py:173-174 | an undecodable line is skipped without effect |
| Client.ReceiveSession | network/client.py:135-147 | a receive session leaves the connection flag as it was |
| Client.ReceiveIgnoresChunking | network/client.py:142-145 | the roster after receiving does not depend on how the stream was cut into reads |
| Chat.Create | NETWORKING/server1.py:27-36 | a server exists iff the transport name is valid, of that kind and with no clients; otherwise ValueError |
| Chat.DefaultRefused | NETWORKING/server1.py:17 | the default empty transport name is refused |
| Chat.Accept | NETWORKING/server1.py:179-184 | the client is appended at the end and distinctness is kept |
| Chat.Others | NETWORKING/server1.py:67-68 | exactly the listed clients other than the sender |
| Chat.Relayed | NETWORKING/server1.py:58-64 | a broadcast message whose payload carries the name and message |
| Chat.Broadcast | NETWORKING/server1.py:55-72 | a relayed copy goes to a client iff it is listed and is not the sender; one send per other client, in list order |
| Chat.BroadcastOnceEach | NETWORKING/server1.py:55-72 | among distinct sockets, every other client receives exactly one copy and the sender none |
| Chat.ProcessMsg | NETWORKING/server1.py:74-105 | a non-dict, a non-broadcast type or a missing payload is ignored without error or sends; for a broadcast with a payload, the call succeeds iff the payload is a dict with exactly the keys name and message, sending exactly the relayed copies, and otherwise raises TypeError with nothing sent |
| Chat.BroadcastReachesOthers | NETWORKING/server1.py:99-105 | a well-formed broadcast reaches exactly the other clients and never the sender |
| Chat.ChatLines | NETWORKING/server1.py:129-135 | over a buffer of lines, every send goes to a listed client other than the sender |
| Chat.Remove | NETWORKING/server1.py:147-148 | `list.remove`: one occurrence is removed when present, and the list is unchanged otherwise |
| Chat.RemoveDistinct | NETWORKING/server1.py:147-148 | in a duplicate-free list, removal leaves exactly the other clients |
| Chat.HandleClient | NETWORKING/server1.py:107-148 | a session that ends normally removes exactly that client; a handler error leaves the list as it was; a session still running changes nothing |
| Chat.MalformedBroadcastStrands | NETWORKING/server1.py:105 | a broadcast payload missing "message" raises TypeError and leaves the client listed |
| Chat.InvalidJsonSkipped | NETWORKING/server1.py:137-139 | an undecodable line is dropped and the lines after it are still processed |
| Legacy.ProcessMessage | NETWORKING/server.py:130-148 | an error is raised iff the line decodes, and it is always AttributeError |
| Legacy.LoggedErrors | NETWORKING/server.py:122-126 | the loop logs only AttributeErrors, at most one per line |
| Legacy.EveryMessageRejected | NETWORKING/server.py:122-126 | one error is logged per decodable line |
| Legacy.HandleClient | NETWORKING/server.py:110-128 | the registry is unchanged except that an ended session is closed, with one logged error per decodable line |
| Legacy.Initial | NETWORKING/client.py:74-77 | disconnected and bound to no server |
| Legacy.Connect | NETWORKING/client.py:130-139 | host and port are always overwritten; an address the socket cannot use raises its TypeError, OverflowError or OSError; a usable one succeeds iff the socket was not connected and the peer is reachable, recording the peer, and raises OSError otherwise; on any error the connection flag and peer stay as they were |
| Legacy.SecondConnectMisrecords | NETWORKING/client.py:130-135 | after a successful connect, a second one to another address raises (OSError, or the address error) and leaves the socket on the first server while the recorded host and port name the second |
| Legacy.ReceiveLines | NETWORKING/client.py:169-175 | processing lines never touches the connection flag or the outbox |
| Legacy.ReceiveCompose | NETWORKING/client.py:170-175 | each line's error is swallowed, so a batch of lines equals processing its parts in turn |
| Legacy.LoopsAgreeWithoutErrors | NETWORKING/client.py:180-205 | without errors the two client loops produce the same state |
| Legacy.BadLineContrast | NETWORKING/client.py:186-193 | after a bad init line, this loop still applies the next line, while the lobby client's loop stops |
| Legacy.FirstAt | NETWORKING/client.py:106-109 | the first position whose ip is the LAN ip |
| Legacy.SelectServer | NETWORKING/client.py:92-111 | no servers means none; a client picks the first; a host picks the first server with its own ip, if any; other roles pick none |
| Legacy.Start | NETWORKING/client.py:82-111 | nothing happens when no server is selected; otherwise start() connects to the ip and port of the selected announcement, so an unusable address escapes with its error, and a usable one connects iff the socket is free and the server reachable, OSError escaping when not |
| Legacy.StartRejectsIllTypedAnnouncement | NETWORKING/client.py:92-99 | an announcement with a null ip and a string port is filed, selected by a client, and makes start() raise TypeError without connecting |
| Legacy.ClientStartsFirstDiscovered | NETWORKING/client.py:92-99 | a client with a free socket, a usable first address and a reachable server connects to the first server discovered and records its address |
| Profiles.Load | database_db/profile_manage.py:45-52 | no profile iff the table is empty; otherwise the first row |
| Profiles.CreateProfile | database_db/profile_manage.py:30-42 | a new row with the given id, name and time, and every counter 0 |
| Profiles.Tally | database_db/profile_manage.py:60-68 | games +1, wins +1 iff win, losses +1 iff loss; the best survival becomes the maximum when a time is given and is unchanged otherwise; id, name and creation time are kept |
| Profiles.UpdateStats | database_db/profile_manage.py:55-76 | an empty table is unchanged; the loaded row is tallied; rows with other ids are untouched |
| Profiles.UpdateTouchesLoadedRow | database_db/profile_manage.py:70-74 | with unique ids only the loaded row changes, and loading afterwards returns the tallied profile |
| Profiles.BestNeverDecreases | database_db/profile_manage.py:64-68 | the best survival record never decreases |
| Profiles.NeutralGame | database_db/profile_manage.py:61 | a game with neither win nor loss and no time only counts the game |
| Profiles.WinAndLossBothCounted | database_db/profile_manage.py:62-63 | win and loss are independent, so both can be counted for one game |
| Profiles.UpdatesKeepConsistent | database_db/profile_manage.py:61-63 | with never both a win and a loss in one game, wins + losses never exceed games played |
| Profiles.Replay | database_db/profile_manage.py:55-76 | a sequence of updates keeps the table size, and an empty table stays empty |
| Profiles.ReplayTalliesLoaded | database_db/profile_manage.py:55-76 | with unique ids, the loaded profile after a run of games is the first row tallied by each game in turn; ids stay unique and no other row changes |
| Profiles.CreatedIsLoaded | database_db/profile_manage.py:20-23 | a profile created in an empty table loads with every default 0 |
| Profiles.Row | database_db/profile_manage.py:47 | the loaded tuple has six columns with the name at index 1 |
| Stacks.New | utils/stack.py:3-4 | a new stack is empty |
| Stacks.Push | utils/stack.py:6-7 | the item is appended on top and the rest is kept |
| Stacks.IsEmpty | utils/stack.py:19-20 | empty exactly when peek raises |
| Stacks.Pop | utils/stack.py:9-12 | IndexError iff empty; otherwise the top item and the stack below it |
| Stacks.Peek | utils/stack.py:14-17 | IndexError iff empty; otherwise the top item |
| Stacks.EmptyIffNothingToTake | utils/stack.py:19-20 | empty iff pop and peek both raise |
| Stacks.PushThenPeek | utils/stack.py:6-17 | after pushing x, peek returns x |
| Stacks.PushThenPop | utils/stack.py:6-12 | after pushing x, pop returns x and the prior stack |
| Stacks.PeekIsPopWithoutRemoval | utils/stack.py:14-17 | peek returns what pop would, and the stack is unchanged |
| Stacks.PushAll | utils/stack.py:6-7 | repeated pushes append in order |
| Stacks.Reverse | utils/stack.py:9-12 | the reference order of repeated pops: element i is the i-th from the end |
| Stacks.LastInFirstOut | utils/stack.py:6-12 | pushing a sequence and popping as many items returns them reversed and restores the stack |
| Scenes.Initial | main.py:14-15 | exactly one scene, the start menu, and the loop is running |
| Scenes.Dispatch | main.py:32-46 | no result changes nothing; PUSH puts the payload on top; POP removes exactly the top; REPLACE keeps the size and puts the payload on top; QUIT stops only the loop; unknown actions change nothing; popping an empty stack raises IndexError |
| Scenes.PushThenPopRestores | main.py:35-39 | PUSH then POP restores the application |
| Scenes.PoppingLastSceneStopsLoop | main.py:25 | popping the only scene leaves an empty stack, whose next peek raises |
| Scenes.ReplaceIsPopPush | main.py:41-43 | REPLACE equals POP followed by PUSH |
| Menu.Initial | game_pages/start_menu.py:60-61 | the cursor starts on the first option, with both popups hidden |
| Menu.MenuAction | game_pages/start_menu.py:330-348 | Singleplayer or Multiplayer without a profile shows the profile popup; Singleplayer with a profile pushes the game; Multiplayer shows the mode popup; Quit quits; anything else does nothing |
| Menu.KeyDown | game_pages/start_menu.py:283-300 | nothing while the popup is visible; Up and Down move the cursor modulo 4; Return runs the selected option; Escape quits; other keys do nothing |
| Menu.UpDownInverse | game_pages/start_menu.py:287-291 | Up and Down undo each other |
| Menu.PopupFreezesMenu | game_pages/start_menu.py:284-285 | while the popup is visible, no key sequence changes the menu |
| Menu.FullCycle | game_pages/start_menu.py:288-291 | four presses of the same arrow return the cursor to where it was |
| Menu.UpReturnQuits | game_pages/start_menu.py:287-295 | Up from the first option wraps to Quit, and Return then quits |
| Menu.SingleplayerStartsGame | game_pages/start_menu.py:331-336 | Return on the first option with a profile puts the game on top of the scene stack |
| EndToEnd.CreateRequestReachesServer | network/client.py:196-204 | a create request built by the client adds the lobby with the form's name and passcode |
| EndToEnd.ProfileNamesHost | network/server.py:239-241 | a stored profile sent as host_profile names the host in the announcement |
| EndToEnd.AcceptanceReachesRequester | network/client.py:216-225 | a client's acceptance reaches the requester as ACCEPTED and marks its entry |
| EndToEnd.DeclineReachesRequester | network/client.py:216-225 | a client's decline reaches the requester as DECLINED and removes its entry |
| EndToEnd.CreatedLobbyDiscovered | network/client.py:47-50 | a created lobby is announced and filed by a listener under the server's address, without the password |
| EndToEnd.OwnIdNotARosterKey | network/client.py:155-157 | after init, the client's integer id is not a key of the decoded roster, whose keys JSON turned into strings |

## Left out

- Sockets are not modelled: creation, bind, listen, accept, `sendall`,
  `recvfrom` and UDP broadcast delivery. Sends are outbox entries, and reads
  are given chunks or an end-of-stream or reset marker. A send that fails
  on the server side is a set of failing peers (`Protocol.Delivered`).
  Failing sends on the client side are not modelled.
- Threads, daemon loops, `time.sleep`, the announcement interval and the
  network loops' `running` flags are not modelled. Each handler runs as one atomic step.
  Each session is modelled in isolation over a fixed client list; the
  unsynchronised shared maps and interleaved handler threads are not.
- JSON encoding and decoding are a `decode` parameter. Encoded messages are
  not shown to be free of newlines. UTF-8 decoding of chunks is left out:
  the framing works on strings.
- JSON floats are not represented: `Json.Value` has integers only, so
  fractional numbers, `1.0 == 1` key equality and the falsiness of `0.0` are
  not modelled.
- Python's `True == 1` key equality is not modelled: `Bool` and `Int` keys
  of a dict are distinct.
- Upper-casing is modelled for ASCII letters only.
- `uuid.uuid4()`, `datetime.utcnow()` and peer reachability are parameters.
  So are two answers of the name service, in `Client.Net`: whether the
  IDNA codec encodes a non-ASCII host, and whether the name resolves.
  Byte-string hosts, which `socket.connect` also accepts, have no `Value`.
  Fresh lobby ids are assumed unused.
- SQLite is not modelled. The table is a sequence of rows, `LIMIT 1` is its
  first row, and survival times are integers rather than floats.
- `get_lan_ip`, `start_discovery`/`_discovery_wait` and the two-second
  discovery wait are not modelled. The LAN ip is a parameter.
- Client.ReceiveSession: states only the connection flag, because the roster
  effects are stated per line by `Client.ReceiveLines` and its lemmas.
- Lobby.ServeLines: states the invariant and not the collected outbox,
  because each line's effect is stated by `Lobby.Process`.
- The chat server's `validation_check`, which is empty, and `shutdown` are
  not modelled. Nor is its `client.close()` after a session: `Chat.Server`
  records only the client list.
- All pygame and pygame_gui rendering, the popups, mouse handling and the
  game loop of `subnautic_shooter` are not modelled. The menu abstracts the
  profile lookup as a boolean.
- `NETWORKING/client1.py` is not part of this model: it is an interactive
  chat script.
- `handle_move` is commented out in the source, so it is not modelled.

=== FILE: chat.dfy ===
/** The prototype chat server: a list of accepted sockets, one handler
    thread per socket, and a single message type, `broadcast`, relayed to
    every other client. */
module Chat {
  import opened Wrappers
  import opened Json
  import opened Protocol
  import Framing
  import Transport

  /** The accepted sockets, in accept order. */
  datatype Server = Server(kind: Transport.Kind, clients: seq<Conn>)

  /** The constructor: the connection type must name TCP or UDP, loosely
      spelled; the default, the empty name, is refused. */
  function Create(connType: string): (r: Result<Server>)
    ensures r.Ok? <==> Transport.Select(connType).Ok?
    ensures r.Ok? ==> r.value.kind == Transport.Select(connType).value && r.value.clients == []
    ensures r.Raised? ==> r.error == ValueError
  {
    match Transport.Select(connType)
    case Raised(e) => Raised(e)
    case Ok(kind) => Ok(Server(kind, []))
  }

  /** Built with no connection type, the server never comes up. */
  lemma DefaultRefused()
    ensures Create("") == Raised(ValueError)
  {
    Transport.OtherNamesRejected();
  }

  /** Sockets are distinct objects. */
  ghost predicate Valid(s: Server)
  {
    forall i, j :: 0 <= i < j < |s.clients| ==> s.clients[i] != s.clients[j]
  }

  /** The accept loop appends each new socket. */
  function Accept(s: Server, c: Conn): (r: Server)
    requires Valid(s) && c !in s.clients
    ensures Valid(r)
    ensures r.kind == s.kind && |r.clients| == |s.clients| + 1
    ensures r.clients[..|s.clients|] == s.clients && r.clients[|s.clients|] == c
  {
    s.(clients := s.clients + [c])
  }

  /** The clients other than `sender`, in list order. */
  function Others(clients: seq<Conn>, sender: Conn): (r: seq<Conn>)
    ensures forall d :: d in r <==> d in clients && d != sender
    ensures sender !in clients ==> r == clients
    ensures |r| <= |clients|
  {
    if clients == [] then []
    else (if clients[0] == sender then [] else [clients[0]]) + Others(clients[1..], sender)
  }

  /** The relayed message: the server rebuilds it from the two fields. */
  function Relayed(name: Value, message: Value): (m: Value)
    ensures Get(m, "type") == Ok(Str("broadcast"))
    ensures Field(Get(m, "payload").value, "name") == Ok(name)
    ensures Field(Get(m, "payload").value, "message") == Ok(message)
  {
    Pair("type", Str("broadcast"), "payload", Pair("name", name, "message", message))
  }

  /** `handle_broadcast`: one send to every client except the sender. */
  function Broadcast(clients: seq<Conn>, sender: Conn, name: Value, message: Value): (out: seq<Send<Value>>)
    ensures forall x :: x in out <==> x.msg == Relayed(name, message) && x.to in clients && x.to != sender
    ensures |out| == |Others(clients, sender)|
    ensures forall i :: 0 <= i < |out| ==> out[i].to == Others(clients, sender)[i]
  {
    var others := Others(clients, sender);
    var out := Fanout(others, Relayed(name, message));
    assert forall x :: x in out <==> x.msg == Relayed(name, message) && x.to in clients && x.to != sender by {
      forall x | x in out ensures x.msg == Relayed(name, message) && x.to in others {
        var i :| 0 <= i < |out| && out[i] == x;
        assert x.to == others[i];
      }
      forall x: Send<Value> | x.msg == Relayed(name, message) && x.to in others ensures x in out {
        var i :| 0 <= i < |others| && others[i] == x.to;
        assert out[i] == x;
      }
    }
    out
  }

  /** `process_msg` on one decoded message: anything that is not a dict,
      whose type is not a string, or whose payload is None is ignored, as is
      every type but `broadcast`. A broadcast payload is spread into keyword
      arguments, so it must be a dict with exactly the keys `name` and
      `message`; anything else raises `TypeError`. */
  function ProcessMsg(clients: seq<Conn>, sender: Conn, msg: Value): (r: (seq<Send<Value>>, Option<Error>))
    ensures r.1.Some? ==> r.0 == [] && r.1 == Some(TypeError)
    ensures r.0 != [] ==> msg.Obj? && Str("type") in msg.fields && msg.fields[Str("type")] == Str("broadcast")
    ensures (msg.Obj? && Str("type") in msg.fields && msg.fields[Str("type")] == Str("broadcast")
             && Str("payload") in msg.fields && msg.fields[Str("payload")] != Null) ==>
      var p := msg.fields[Str("payload")];
      (r.1.None? <==> p.Obj? && p.fields.Keys == {Str("name"), Str("message")})
    ensures !(msg.Obj? && Get(msg, "type").value == Str("broadcast") && Get(msg, "payload").value != Null) ==>
      r == ([], None)
    ensures msg.Obj? && Get(msg, "type").value == Str("broadcast") && Get(msg, "payload").value.Obj?
            && Get(msg, "payload").value.fields.Keys == {Str("name"), Str("message")} ==>
      var p := Get(msg, "payload").value.fields;
      r == (Broadcast(clients, sender, p[Str("name")], p[Str("message")]), None)
  {
    if !msg.Obj? then ([], None)
    else
      var kind := Get(msg, "type").value;
      var payload := Get(msg, "payload").value;
      if !kind.Str? || payload == Null || kind.s != "broadcast" then ([], None)
      else if !(payload.Obj? && payload.fields.Keys == {Str("name"), Str("message")}) then ([], Some(TypeError))
      else (Broadcast(clients, sender, payload.fields[Str("name")], payload.fields[Str("message")]), None)
  }

  /** A well-formed broadcast reaches every other client and never echoes
      back to its sender. */
  lemma BroadcastReachesOthers(clients: seq<Conn>, sender: Conn, name: Value, text: Value, d: Conn)
    ensures var r := ProcessMsg(clients, sender, Pair("type", Str("broadcast"), "payload", Pair("name", name, "message", text)));
            && r.1.None?
            && (Send(d, Relayed(name, text)) in r.0 <==> d in clients && d != sender)
            && (forall x :: x in r.0 ==> x.to != sender)
  {
  }

  /** Among distinct sockets, a broadcast sends exactly one copy to each
      other client and none to the sender. */
  lemma BroadcastOnceEach(clients: seq<Conn>, sender: Conn, name: Value, message: Value, d: Conn)
    requires forall i, j :: 0 <= i < j < |clients| ==> clients[i] != clients[j]
    ensures multiset(Broadcast(clients, sender, name, message))[Send(d, Relayed(name, message))]
            == if d in clients && d != sender then 1 else 0
  {
    var others := Others(clients, sender);
    RemoveDistinct(clients, sender);
    CountDistinct(clients, d);
    FanoutCount(others, Relayed(name, message), d);
    if d in clients {
      assert multiset(clients)[d] == 1;
    }
  }

  /** A fan-out sends `msg` to a socket as often as the socket is listed. */
  lemma {:induction false} FanoutCount(cs: seq<Conn>, msg: Value, d: Conn)
    ensures multiset(Fanout(cs, msg))[Send(d, msg)] == multiset(cs)[d]
  {
    if cs != [] {
      FanoutCount(cs[1..], msg, d);
      assert cs == [cs[0]] + cs[1..];
      assert Fanout(cs, msg) == [Send(cs[0], msg)] + Fanout(cs[1..], msg);
    }
  }

  /** The receive loop over complete lines: invalid JSON is reported and
      skipped; a `TypeError` from a malformed broadcast is not caught and
      ends the thread, so later lines are never processed. */
  function ChatLines(clients: seq<Conn>, sender: Conn, lines: seq<string>,
                     decode: string -> Option<Value>): (r: (seq<Send<Value>>, Option<Error>))
    ensures forall x :: x in r.0 ==> x.to in clients && x.to != sender
    decreases |lines|
  {
    if lines == [] then ([], None)
    else match decode(lines[0])
      case None => ChatLines(clients, sender, lines[1..], decode)
      case Some(msg) =>
        var p := ProcessMsg(clients, sender, msg);
        if p.1.Some? then p
        else
          assert forall x :: x in p.0 ==> x.to in clients && x.to != sender by {
            if msg.Obj? && p.0 != [] {
              var payload := msg.fields[Str("payload")];
              assert p.0 == Broadcast(clients, sender, payload.fields[Str("name")], payload.fields[Str("message")]);
            }
          }
          var rest := ChatLines(clients, sender, lines[1..], decode);
          (p.0 + rest.0, rest.1)
  }

  /** `list.remove`: drops the first occurrence. */
  function Remove(s: seq<Conn>, x: Conn): (r: seq<Conn>)
    ensures x !in s ==> r == s
    ensures x in s ==> |r| == |s| - 1
    ensures multiset(r) == multiset(s) - multiset{x}
  {
    if s == [] then []
    else
      assert s == [s[0]] + s[1..];
      if s[0] == x then s[1..] else [s[0]] + Remove(s[1..], x)
  }

  /** In a list of distinct sockets, removing one keeps every other, in order. */
  lemma {:induction false} RemoveDistinct(s: seq<Conn>, x: Conn)
    requires forall i, j :: 0 <= i < j < |s| ==> s[i] != s[j]
    ensures Remove(s, x) == Others(s, x)
  {
    if s != [] {
      var tail := s[1..];
      DistinctTail(s);
      RemoveDistinct(tail, x);
      if s[0] == x {
        HeadNotInTail(s);
      }
    }
  }

  lemma DistinctTail(s: seq<Conn>)
    requires s != [] && forall i, j :: 0 <= i < j < |s| ==> s[i] != s[j]
    ensures forall i, j :: 0 <= i < j < |s[1..]| ==> s[1..][i] != s[1..][j]
  {
    forall i, j | 0 <= i < j < |s[1..]| ensures s[1..][i] != s[1..][j] {
      assert s[1..][i] == s[i + 1] && s[1..][j] == s[j + 1];
    }
  }

  lemma HeadNotInTail(s: seq<Conn>)
    requires s != [] && forall i, j :: 0 <= i < j < |s| ==> s[i] != s[j]
    ensures s[0] !in s[1..]
  {
    forall i | 0 <= i < |s[1..]| ensures s[1..][i] != s[0] {
      assert s[1..][i] == s[i + 1];
    }
  }

  /** What `handle_client` leaves behind for one connection: the sends it
      made, the error that ended it if any, and the server's client list. A
      client is removed only when its loop ends normally (empty read or
      reset); a thread killed by an exception leaves its socket listed. */
  datatype Outcome = Outcome(out: seq<Send<Value>>, error: Option<Error>, server: Server)

  function HandleClient(s: Server, c: Conn, recvs: seq<Framing.Read>, decode: string -> Option<Value>): (r: Outcome)
    requires Valid(s)
    ensures Valid(r.server) && r.server.kind == s.kind
    ensures r.error.Some? ==> r.server == s
    ensures r.error.None? && Framing.RunSession("", recvs).closed ==>
      forall d :: d in r.server.clients <==> d in s.clients && d != c
    ensures !Framing.RunSession("", recvs).closed ==> r.server == s
  {
    var session := Framing.RunSession("", recvs);
    var p := ChatLines(s.clients, c, session.lines, decode);
    if p.1.Some? || !session.closed then Outcome(p.0, p.1, s)
    else
      var left := Remove(s.clients, c);
      RemoveDistinct(s.clients, c);
      DistinctSub(s.clients, left);
      Outcome(p.0, None, s.(clients := left))
  }

  /** A sub-multiset of a duplicate-free sequence is duplicate-free. */
  lemma DistinctSub(s: seq<Conn>, t: seq<Conn>)
    requires forall i, j :: 0 <= i < j < |s| ==> s[i] != s[j]
    requires multiset(t) <= multiset(s)
    ensures forall i, j :: 0 <= i < j < |t| ==> t[i] != t[j]
  {
    forall i, j | 0 <= i < j < |t| ensures t[i] != t[j] {
      if t[i] == t[j] {
        assert multiset{t[i], t[j]} <= multiset(t) by {
          assert t == t[..i] + [t[i]] + t[i + 1..j] + [t[j]] + t[j + 1..];
        }
        assert multiset(s)[t[i]] >= 2;
        CountDistinct(s, t[i]);
        assert false;
      }
    }
  }

  /** In a duplicate-free sequence, every element occurs at most once. */
  lemma {:induction false} CountDistinct(s: seq<Conn>, x: Conn)
    requires forall i, j :: 0 <= i < j < |s| ==> s[i] != s[j]
    ensures multiset(s)[x] <= 1
  {
    if s != [] {
      CountDistinct(s[1..], x);
      assert s == [s[0]] + s[1..];
      if s[0] == x {
        assert x !in s[1..] by {
          forall i | 0 <= i < |s[1..]| ensures s[1..][i] != x {
            assert s[1..][i] == s[i + 1];
          }
        }
      }
    }
  }

  /** A broadcast with a missing or extra payload field kills the sender's
      handler thread before cleanup: its socket is never removed from the
      client list, and keeps receiving every other client's broadcasts. */
  lemma MalformedBroadcastStrands(s: Server, c: Conn, name: Value, recvs: seq<Framing.Read>,
                                  decode: string -> Option<Value>)
    requires Valid(s) && c in s.clients
    requires Framing.RunSession("", recvs).lines != []
    requires decode(Framing.RunSession("", recvs).lines[0])
             == Some(Pair("type", Str("broadcast"), "payload", Obj(map[Str("name") := name])))
    ensures var r := HandleClient(s, c, recvs, decode);
            r.error == Some(TypeError) && r.out == [] && c in r.server.clients
  {
    var m := Pair("type", Str("broadcast"), "payload", Obj(map[Str("name") := name]));
    assert Obj(map[Str("name") := name]).fields.Keys != {Str("name"), Str("message")} by {
      assert Str("message") !in Obj(map[Str("name") := name]).fields.Keys;
    }
  }

  /** Invalid JSON is skipped: removing such a line changes nothing. */
  lemma {:induction false} InvalidJsonSkipped(clients: seq<Conn>, sender: Conn, a: seq<string>, bad: string,
                                              b: seq<string>, decode: string -> Option<Value>)
    requires decode(bad).None?
    ensures ChatLines(clients, sender, a + [bad] + b, decode) == ChatLines(clients, sender, a + b, decode)
    decreases |a|
  {
    var longer := a + [bad] + b;
    if a == [] {
      assert longer[0] == bad && longer[1..] == b;
      assert a + b == b;
    } else {
      assert longer[0] == a[0] && longer[1..] == a[1..] + [bad] + b;
      assert (a + b)[0] == a[0] && (a + b)[1..] == a[1..] + b;
      InvalidJsonSkipped(clients, sender, a[1..], bad, b, decode);
    }
  }
}

=== FILE: client.dfy ===
/** The lobby client's TCP side: connection flags, message validation and
    packaging, the lobby-extension request builders, and the roster
    interpreter that applies server messages to the client's state. */
module Client {
  import opened Wrappers
  import opened Json
  import Framing

  /** The client's state. `players` is whatever the server last sent (a dict
      on a well-behaved server, but `update_players` stores any payload);
      `outbox` holds the messages written to the socket, in order, each on
      the wire as its JSON text followed by a newline. `closed` records that
      the socket object has been closed and cannot connect again. */
  datatype State = State(connected: bool, closed: bool, host: Value, port: Value,
                         myId: Value, players: Value, outbox: seq<Value>)

  /** The state after a call, and the exception the call let escape. */
  datatype Step = Step(st: State, error: Option<Error>)

  /** A freshly constructed client: not connected, no id, empty roster. */
  function Initial(host: Value, port: Value): (st: State)
    ensures !st.connected && !st.closed && st.myId == Null && st.players == Obj(map[]) && st.outbox == []
  {
    State(false, false, host, port, Null, Obj(map[]), [])
  }

  // ---------------------------------------------------------------- connection

  /** What lies outside the program for one connection attempt: whether the
      IDNA codec encodes the host (asked only of a non-ASCII host), whether
      the host name resolves, and whether the resolved peer accepts. */
  datatype Net = Net(encodes: bool, resolves: bool, reachable: bool)

  predicate Ascii(s: string)
  {
    forall i :: 0 <= i < |s| ==> s[i] < 128 as char
  }

  /** A host `socket.connect` accepts as a name: a string without a NUL
      character, which the IDNA codec can encode unless it is ASCII. */
  predicate HostName(host: Value, net: Net)
  {
    host.Str? && '\0' !in host.s && (Ascii(host.s) || net.encodes)
  }

  /** A port the address parser reads as a C `int`: an integer (a bool is
      one) within the 32-bit signed range. */
  predicate CInt(port: Value)
  {
    port.Bool? || (port.Int? && -0x8000_0000 <= port.i < 0x8000_0000)
  }

  /** A C `int` port number within 0..65535. */
  predicate PortInRange(port: Value)
  {
    port.Bool? || (port.Int? && 0 <= port.i <= 65535)
  }

  /** How `socket.connect((host, port))` turns an IPv4 address into a
      socket address, before any connection is attempted. The host is read
      first (TypeError unless `HostName`), then the port (TypeError unless an
      integer, OverflowError outside the C `int` range); then the name is
      resolved (`socket.gaierror`, an OSError); only then is the port
      checked against 0..65535 (OverflowError). */
  function AddressError(host: Value, port: Value, net: Net): (r: Option<Error>)
    ensures r.None? <==> HostName(host, net) && PortInRange(port) && net.resolves
    ensures !HostName(host, net) ==> r == Some(TypeError)
    ensures HostName(host, net) && !port.Int? && !port.Bool? ==> r == Some(TypeError)
    ensures HostName(host, net) && port.Int? && !CInt(port) ==> r == Some(OverflowError)
    ensures HostName(host, net) && CInt(port) && !net.resolves ==> r == Some(OSError)
    ensures HostName(host, net) && CInt(port) && net.resolves && !PortInRange(port) ==> r == Some(OverflowError)
  {
    if !HostName(host, net) then Some(TypeError)
    else if !port.Int? && !port.Bool? then Some(TypeError)
    else if !CInt(port) then Some(OverflowError)
    else if !net.resolves then Some(OSError)
    else if !PortInRange(port) then Some(OverflowError)
    else None
  }

  /** The order matters: a host with a NUL is rejected whatever the port, and
      a name that does not resolve fails with OSError even when its port is
      out of range. */
  lemma AddressCheckOrder(net: Net)
    ensures AddressError(Str("a\0b"), Int(80), net) == Some(TypeError)
    ensures !net.resolves ==> AddressError(Str("no-such-host.invalid"), Int(70000), net) == Some(OSError)
    ensures net.resolves ==> AddressError(Str("localhost"), Int(70000), net) == Some(OverflowError)
    ensures AddressError(Str("localhost"), Int(0x1_0000_0000), net) == Some(OverflowError)
    ensures AddressError(Null, Int(0x1_0000_0000), net) == Some(TypeError)
  {
    assert Str("a\0b").s[1] == '\0';
  }

  /** `connect(host, port)`: ignored while connected; otherwise the target is
      recorded before connecting. The socket then rejects an address it
      cannot use, and the attempt fails with OSError when the peer is
      unreachable or the socket was closed earlier. */
  function Connect(st: State, host: Value, port: Value, net: Net): (r: Step)
    ensures st.connected ==> r == Step(st, None)
    ensures !st.connected ==> r.st.host == host && r.st.port == port
    ensures !st.connected ==> (r.st.connected <==> AddressError(host, port, net).None? && net.reachable && !st.closed)
    ensures r.error.None? <==> r.st.connected
    ensures !st.connected && AddressError(host, port, net).Some? ==> r.error == AddressError(host, port, net)
    ensures !st.connected && AddressError(host, port, net).None? && !r.st.connected ==> r.error == Some(OSError)
    ensures r.st.outbox == st.outbox && r.st.myId == st.myId && r.st.players == st.players
    ensures r.st.closed == st.closed
  {
    if st.connected then Step(st, None)
    else
      var target := st.(host := host, port := port);
      if AddressError(host, port, net).Some? then Step(target, AddressError(host, port, net))
      else if net.reachable && !st.closed then Step(target.(connected := true), None)
      else Step(target, Some(OSError))
  }

  /** `disconnect()`: closes the socket if connected. */
  function Disconnect(st: State): (r: State)
    ensures !r.connected
    ensures r.closed == (st.closed || st.connected)
    ensures r.host == st.host && r.port == st.port && r.outbox == st.outbox
    ensures r.myId == st.myId && r.players == st.players
  {
    if st.connected then st.(connected := false, closed := true) else st
  }

  /** A second `connect` while connected keeps the first target. */
  lemma ConnectOnce(st: State, h1: Value, p1: Value, n1: Net, h2: Value, p2: Value, n2: Net)
    requires Connect(st, h1, p1, n1).error.None?
    ensures var s1 := Connect(st, h1, p1, n1).st;
            Connect(s1, h2, p2, n2) == Step(s1, None)
  {
  }

  /** A client that disconnected cannot connect again: the same socket object
      is reused and it is closed, so even a well-formed address fails. */
  lemma NoReconnectAfterDisconnect(st: State, host: Value, port: Value, net: Net)
    requires st.connected
    ensures var r := Connect(Disconnect(st), host, port, net);
            && !r.st.connected
            && r.error == (if AddressError(host, port, net).Some? then AddressError(host, port, net) else Some(OSError))
  {
  }

  // ---------------------------------------------------------------- sending

  /** `send(message)`: while disconnected the message is silently dropped; a
      message lacking `type` or `payload` raises ValueError and is not sent. */
  function Send(st: State, message: map<Value, Value>): (r: Step)
    ensures !st.connected ==> r == Step(st, None)
    ensures st.connected && !(HasKey(message, "type") && HasKey(message, "payload")) ==>
      r == Step(st, Some(ValueError))
    ensures st.connected && HasKey(message, "type") && HasKey(message, "payload") ==>
      r == Step(st.(outbox := st.outbox + [Obj(message)]), None)
  {
    if !st.connected then Step(st, None)
    else if !(HasKey(message, "type") && HasKey(message, "payload")) then Step(st, Some(ValueError))
    else Step(st.(outbox := st.outbox + [Obj(message)]), None)
  }

  /** `message_packager(type, payload)`. */
  function Package(kind: string, payload: Value): (m: map<Value, Value>)
    ensures m.Keys == {Str("type"), Str("payload")}
    ensures m[Str("type")] == Str(kind) && m[Str("payload")] == payload
  {
    map[Str("type") := Str(kind), Str("payload") := payload]
  }

  /** Every packaged message passes `send`'s validation: a connected client
      sends it, unchanged, as its last outbox entry. */
  lemma PackagedAlwaysSent(st: State, kind: string, payload: Value)
    requires st.connected
    ensures var r := Send(st, Package(kind, payload));
            r.error.None? && r.st.outbox == st.outbox + [Obj(Package(kind, payload))]
  {
  }

  // ---------------------------------------------------------------- lobby requests

  /** The `get_lobbies` request. */
  function GetLobbiesRequest(): (m: map<Value, Value>)
    ensures m.Keys == {Str("type"), Str("payload")}
    ensures m[Str("type")] == Str("get_lobbies") && m[Str("payload")] == Obj(map[])
  {
    Package("get_lobbies", Obj(map[]))
  }

  /** The `lobby_create` request built from the UI's lobby form: it reads the
      form's `lobby_name` and `passcode` (a missing one raises) and attaches
      the host's profile row. */
  function CreateLobbyRequest(profile: Value, form: Value): (r: Result<map<Value, Value>>)
    ensures r.Ok? <==> Field(form, "lobby_name").Ok? && Field(form, "passcode").Ok?
    ensures r.Ok? ==>
      && r.value.Keys == {Str("type"), Str("payload")} && r.value[Str("type")] == Str("lobby_create")
      && Field(r.value[Str("payload")], "lobby_name") == Field(form, "lobby_name")
      && Field(r.value[Str("payload")], "lobby_password") == Field(form, "passcode")
      && Get(r.value[Str("payload")], "host_profile") == Ok(profile)
      && r.value[Str("payload")].fields.Keys == {Str("lobby_name"), Str("lobby_password"), Str("host_profile")}
  {
    match (Field(form, "lobby_name"), Field(form, "passcode"))
    case (Raised(e), _) => Raised(e)
    case (_, Raised(e)) => Raised(e)
    case (Ok(name), Ok(passcode)) =>
      Ok(Package("lobby_create", Obj(map[Str("lobby_name") := name, Str("lobby_password") := passcode,
                                         Str("host_profile") := profile])))
  }

  /** The `join_request` request. */
  function JoinRequestRequest(lobbyId: Value, playerName: Value): (m: map<Value, Value>)
    ensures m.Keys == {Str("type"), Str("payload")} && m[Str("type")] == Str("join_request")
    ensures m[Str("payload")].Obj? && m[Str("payload")].fields.Keys == {Str("lobby_id"), Str("player_name")}
    ensures Field(m[Str("payload")], "lobby_id") == Ok(lobbyId)
    ensures Field(m[Str("payload")], "player_name") == Ok(playerName)
  {
    Package("join_request", Pair("lobby_id", lobbyId, "player_name", playerName))
  }

  /** The `join_decision` request. */
  function JoinDecisionRequest(lobbyId: Value, requestId: Value, accepted: Value): (m: map<Value, Value>)
    ensures m.Keys == {Str("type"), Str("payload")} && m[Str("type")] == Str("join_decision")
    ensures m[Str("payload")].Obj?
    ensures m[Str("payload")].fields.Keys == {Str("lobby_id"), Str("request_id"), Str("accepted")}
    ensures Field(m[Str("payload")], "lobby_id") == Ok(lobbyId)
    ensures Field(m[Str("payload")], "request_id") == Ok(requestId)
    ensures Field(m[Str("payload")], "accepted") == Ok(accepted)
  {
    Package("join_decision", Obj(map[Str("lobby_id") := lobbyId, Str("request_id") := requestId,
                                     Str("accepted") := accepted]))
  }

  /** `send_create_lobby`: builds the request (which may raise) and sends it. */
  function SendCreateLobby(st: State, profile: Value, form: Value): (r: Step)
    ensures !(Field(form, "lobby_name").Ok? && Field(form, "passcode").Ok?) ==>
      r.st == st && r.error.Some? && (form.Obj? ==> r.error == Some(KeyError))
    ensures Field(form, "lobby_name").Ok? && Field(form, "passcode").Ok? && !st.connected ==> r == Step(st, None)
    ensures Field(form, "lobby_name").Ok? && Field(form, "passcode").Ok? && st.connected ==>
      && r.error.None?
      && r.st == st.(outbox := r.st.outbox)
      && |r.st.outbox| == |st.outbox| + 1 && r.st.outbox[..|st.outbox|] == st.outbox
      && var sent := r.st.outbox[|st.outbox|];
         && Get(sent, "type") == Ok(Str("lobby_create"))
         && Field(Get(sent, "payload").value, "lobby_name") == Field(form, "lobby_name")
         && Field(Get(sent, "payload").value, "lobby_password") == Field(form, "passcode")
         && Field(Get(sent, "payload").value, "host_profile") == Ok(profile)
  {
    match CreateLobbyRequest(profile, form)
    case Raised(e) => Step(st, Some(e))
    case Ok(m) => Send(st, m)
  }

  // ---------------------------------------------------------------- receiving

  /** `process_message` for one line, given what `json.loads` made of it
      (`None` when the line is not JSON, which is caught and ignored). Every
      other exception escapes. `init` assigns the id before it reads the
      roster, so a roster-less `init` still changes the id. */
  function ProcessMessage(st: State, decoded: Option<Value>): (r: Step)
    ensures decoded.None? ==> r == Step(st, None)
    ensures decoded.Some? && !decoded.value.Obj? ==> r == Step(st, Some(AttributeError))
    ensures r.st == st.(myId := r.st.myId, players := r.st.players)
  {
    match decoded
    case None => Step(st, None)
    case Some(message) =>
      match Get(message, "type")
      case Raised(e) => Step(st, Some(e))
      case Ok(kind) =>
        var payload := Get(message, "payload").value;
        if kind == Str("init") then
          match Field(payload, "player_id")
          case Raised(e) => Step(st, Some(e))
          case Ok(id) =>
            var named := st.(myId := id);
            match Field(payload, "players")
            case Raised(e) => Step(named, Some(e))
            case Ok(players) => Step(named.(players := players), None)
        else if kind == Str("update_players") then Step(st.(players := payload), None)
        else if kind == Str("update_position") then
          match (Field(payload, "position"), Field(payload, "player_id"))
          case (Raised(e), _) => Step(st, Some(e))
          case (_, Raised(e)) => Step(st, Some(e))
          case (Ok(pos), Ok(id)) =>
            match SetItem(st.players, id, pos)
            case Raised(e) => Step(st, Some(e))
            case Ok(players) => Step(st.(players := players), None)
        else Step(st, None)
  }

  /** A message of type `type` with payload `payload`, as decoded from the wire. */
  function Message(kind: string, payload: Value): Value
  {
    Obj(Package(kind, payload))
  }

  /** `init` whose payload holds an id and a roster sets both; other keys in
      the message or its payload are ignored. */
  lemma InitSetsIdAndRoster(st: State, m: Value)
    requires Field(m, "type") == Ok(Str("init"))
    requires Field(m, "payload").Ok? && Field(Field(m, "payload").value, "player_id").Ok?
    requires Field(Field(m, "payload").value, "players").Ok?
    ensures var p := m.fields[Str("payload")];
            ProcessMessage(st, Some(m)) == Step(st.(myId := p.fields[Str("player_id")], players := p.fields[Str("players")]), None)
  {
  }

  /** `init` without a roster raises KeyError, but only after the id is set. */
  lemma InitWithoutRosterSetsId(st: State, m: Value)
    requires Field(m, "type") == Ok(Str("init"))
    requires Field(m, "payload").Ok? && Field(Field(m, "payload").value, "player_id").Ok?
    requires Field(Field(m, "payload").value, "players") == Raised(KeyError)
    ensures var p := m.fields[Str("payload")];
            ProcessMessage(st, Some(m)) == Step(st.(myId := p.fields[Str("player_id")]), Some(KeyError))
  {
  }

  /** `update_players` replaces the roster wholesale with whatever the
      payload is, `None` when the message has none. */
  lemma UpdatePlayersReplaces(st: State, m: Value)
    requires Field(m, "type") == Ok(Str("update_players"))
    ensures var roster := if Str("payload") in m.fields then m.fields[Str("payload")] else Null;
            ProcessMessage(st, Some(m)) == Step(st.(players := roster), None)
  {
  }

  /** `update_position` on a dict roster writes exactly one entry, keyed by
      the id as sent, and leaves the others. */
  lemma UpdatePositionWritesOne(st: State, m: Value)
    requires Field(m, "type") == Ok(Str("update_position"))
    requires Field(m, "payload").Ok? && Field(Field(m, "payload").value, "position").Ok?
    requires Field(Field(m, "payload").value, "player_id").Ok?
    requires st.players.Obj? && Hashable(m.fields[Str("payload")].fields[Str("player_id")])
    ensures var p := m.fields[Str("payload")];
            var r := ProcessMessage(st, Some(m));
            && r.error.None? && r.st.players.Obj?
            && r.st.players.fields == st.players.fields[p.fields[Str("player_id")] := p.fields[Str("position")]]
            && r.st.myId == st.myId
  {
  }

  /** A dict whose type is none of the three handled ones, including a
      missing type and the `LOBBY_CREATED` notice, leaves the client as it
      was, whatever its payload. */
  lemma OtherTypesIgnored(st: State, m: Value)
    requires m.Obj? && Get(m, "type").value !in {Str("init"), Str("update_players"), Str("update_position")}
    ensures ProcessMessage(st, Some(m)) == Step(st, None)
  {
  }

  /** The receive thread's loop over complete lines: lines are interpreted
      in order until one raises anything but a JSON error, which ends the
      thread; later lines are never interpreted. */
  function ReceiveLines(st: State, lines: seq<string>, decode: string -> Option<Value>): (r: Step)
    ensures r.st.connected == st.connected && r.st.outbox == st.outbox
    decreases |lines|
  {
    if lines == [] then Step(st, None)
    else
      var s := ProcessMessage(st, decode(lines[0]));
      if s.error.Some? then s else ReceiveLines(s.st, lines[1..], decode)
  }

  /** Once a line raises, nothing that follows it is interpreted. */
  lemma {:induction false} RaiseEndsReception(st: State, a: seq<string>, b: seq<string>,
                                              decode: string -> Option<Value>)
    requires ReceiveLines(st, a, decode).error.Some?
    ensures ReceiveLines(st, a + b, decode) == ReceiveLines(st, a, decode)
    decreases |a|
  {
    assert a != [];
    var s := ProcessMessage(st, decode(a[0]));
    assert (a + b)[0] == a[0] && (a + b)[1..] == a[1..] + b;
    if s.error.None? {
      RaiseEndsReception(s.st, a[1..], b, decode);
    }
  }

  /** Lines that are not JSON are skipped: dropping them changes nothing. */
  lemma {:induction false} InvalidJsonSkipped(st: State, a: seq<string>, bad: string, b: seq<string>,
                                              decode: string -> Option<Value>)
    requires decode(bad).None?
    ensures ReceiveLines(st, a + [bad] + b, decode) == ReceiveLines(st, a + b, decode)
    decreases |a|
  {
    var longer := a + [bad] + b;
    if a == [] {
      assert longer[0] == bad && longer[1..] == b;
      assert a + b == b;
    } else {
      assert longer[0] == a[0] && longer[1..] == a[1..] + [bad] + b;
      assert (a + b)[0] == a[0] && (a + b)[1..] == a[1..] + b;
      var s := ProcessMessage(st, decode(a[0]));
      if s.error.None? {
        InvalidJsonSkipped(s.st, a[1..], bad, b, decode);
      }
    }
  }

  /** `_receive_loop` over one connection: the framed lines of the reads up
      to the first empty read or reset, interpreted in order. Neither the end
      of the stream nor a raise clears `connected`. */
  function ReceiveSession(st: State, recvs: seq<Framing.Read>, decode: string -> Option<Value>): (r: Step)
    ensures r.st.connected == st.connected
  {
    ReceiveLines(st, Framing.RunSession("", recvs).lines, decode)
  }

  /** The roster the client ends with does not depend on how the server's
      bytes were split into reads. */
  lemma ReceiveIgnoresChunking(st: State, c1: seq<string>, c2: seq<string>, decode: string -> Option<Value>)
    requires Framing.Concat(c1) == Framing.Concat(c2)
    ensures ReceiveLines(st, Framing.Receive("", c1).0, decode) == ReceiveLines(st, Framing.Receive("", c2).0, decode)
  {
    Framing.ChunkBoundariesIrrelevant("", c1, c2);
  }
}

=== FILE: discovery.dfy ===
/** LAN discovery: the server's UDP announcement and the client's registry of
    announcements, upserted by the announcing server's (ip, port). */
module Discovery {
  import opened Wrappers
  import opened Json

  /** The well-known UDP port announcements go to, and the seconds between two. */
  const BroadcastPort: nat := 37020
  const IntervalSeconds: nat := 1

  /** The packet the lobby server's broadcaster sends on each tick: nothing
      while the announcement payload dict is empty, otherwise an "Init Lobby"
      packet whose name fields fall back to defaults. The password is read
      under the key "password", which the lobby server never sets. */
  function Announce(payload: map<string, Value>, ip: Value, port: Value): (r: Option<Value>)
    ensures r.None? <==> payload == map[]
    ensures r.Some? ==> (r.value.Obj? && r.value.fields.Keys ==
      {Str("type"), Str("lobby_name"), Str("host_name"), Str("lobby_password"), Str("ip"), Str("port")})
    ensures r.Some? ==> && r.value.fields[Str("type")] == Str("Init Lobby")
                        && r.value.fields[Str("ip")] == ip
                        && r.value.fields[Str("port")] == port
    ensures r.Some? ==> (r.value.fields[Str("lobby_name")] ==
      if "lobby_name" in payload then payload["lobby_name"] else Str("Lobby"))
    ensures r.Some? ==> (r.value.fields[Str("host_name")] ==
      if "host_name" in payload then payload["host_name"] else Str("Host"))
    ensures r.Some? ==> (r.value.fields[Str("lobby_password")] ==
      if "password" in payload then payload["password"] else Str(""))
  {
    if payload == map[] then None
    else Some(Obj(map[
      Str("type") := Str("Init Lobby"),
      Str("lobby_name") := DictGet(payload, "lobby_name", Str("Lobby")),
      Str("host_name") := DictGet(payload, "host_name", Str("Host")),
      Str("lobby_password") := DictGet(payload, "password", Str("")),
      Str("ip") := ip,
      Str("port") := port]))
  }

  /** The lobby server only ever sets a name and a host: its announcement
      carries them, and an empty password. */
  lemma AnnounceNamed(name: Value, host: Value, ip: Value, port: Value)
    ensures var a := Announce(map["lobby_name" := name, "host_name" := host], ip, port);
            && a.Some?
            && a.value.fields[Str("lobby_name")] == name
            && a.value.fields[Str("host_name")] == host
            && a.value.fields[Str("lobby_password")] == Str("")
  {
    var payload := map["lobby_name" := name, "host_name" := host];
    assert "lobby_name" in payload && "host_name" in payload;
    assert "password" !in payload;
  }

  /** `d.get(k, default)`. */
  function DictGet(d: map<string, Value>, k: string, default: Value): Value
  {
    if k in d then d[k] else default
  }

  /** The prototype server's packet: sent on every tick, unconditionally, with
      a fixed placeholder name. */
  function LegacyAnnounce(ip: Value, port: Value): (r: Value)
    ensures r.Obj? && r.fields.Keys == {Str("type"), Str("name"), Str("ip"), Str("port")}
    ensures r.fields[Str("type")] == Str("Init Lobby")
    ensures r.fields[Str("ip")] == ip && r.fields[Str("port")] == port
  {
    Obj(map[
      Str("type") := Str("Init Lobby"),
      Str("name") := Str("# Insert player name here"),
      Str("ip") := ip,
      Str("port") := port])
  }

  /** A registry key: the announcing server's (ip, port). */
  type Key = (Value, Value)

  /** The listener's registry, a dict in insertion order: `order` lists its
      keys, `records` holds the last packet received for each. */
  datatype Found = Found(order: seq<Key>, records: map<Key, Value>)

  function Empty(): (f: Found)
    ensures Valid(f) && f.records == map[]
  {
    Found([], map[])
  }

  /** Registry invariant: keys are listed once each, and every record is an
      "Init Lobby" packet whose own ip and port are its key. */
  ghost predicate Valid(f: Found)
  {
    && (forall i, j :: 0 <= i < j < |f.order| ==> f.order[i] != f.order[j])
    && (forall k :: k in f.records <==> k in f.order)
    && (forall k :: k in f.records ==> IsAnnouncementFor(f.records[k], k))
  }

  /** A stored packet: a dict typed "Init Lobby" carrying the key's ip and port. */
  predicate IsAnnouncementFor(v: Value, k: Key)
  {
    && v.Obj?
    && Str("type") in v.fields && v.fields[Str("type")] == Str("Init Lobby")
    && Str("ip") in v.fields && v.fields[Str("ip")] == k.0
    && Str("port") in v.fields && v.fields[Str("port")] == k.1
  }

  /** The key a received packet is filed under, if the listener files it: it
      must be a dict typed "Init Lobby" with hashable "ip" and "port" fields;
      anything else raises inside the loop's `try` and is skipped. */
  function KeyOf(msg: Value): (r: Option<Key>)
    ensures r.Some? ==> IsAnnouncementFor(msg, r.value) && Hashable(r.value.0) && Hashable(r.value.1)
    ensures r.None? ==> !msg.Obj? || Str("type") !in msg.fields || msg.fields[Str("type")] != Str("Init Lobby")
                        || Str("ip") !in msg.fields || Str("port") !in msg.fields
                        || !Hashable(msg.fields[Str("ip")]) || !Hashable(msg.fields[Str("port")])
  {
    match Get(msg, "type")
    case Raised(_) => None
    case Ok(t) =>
      if t != Str("Init Lobby") then None
      else match (Field(msg, "ip"), Field(msg, "port"))
        case (Ok(ip), Ok(port)) =>
          if Hashable(ip) && Hashable(port) then Some((ip, port)) else None
        case _ => None
  }

  /** One datagram through the receive loop: `None` is a packet `json.loads`
      rejected. A filed packet replaces any earlier one for its key, which
      keeps its place in the registry. */
  function Receive(f: Found, packet: Option<Value>): (g: Found)
    ensures packet.None? || KeyOf(packet.value).None? ==> g == f
    ensures packet.Some? && KeyOf(packet.value).Some? ==>
      g.records == f.records[KeyOf(packet.value).value := packet.value]
    ensures |f.order| <= |g.order| <= |f.order| + 1 && g.order[..|f.order|] == f.order
  {
    if packet.None? then f
    else match KeyOf(packet.value)
      case None => f
      case Some(k) =>
        Found(if k in f.records then f.order else f.order + [k], f.records[k := packet.value])
  }

  /** `get_lobbies()`: the stored packets in registry order. */
  function Lobbies(f: Found): (r: seq<Value>)
    requires forall i :: 0 <= i < |f.order| ==> f.order[i] in f.records
    ensures |r| == |f.order|
    ensures forall i :: 0 <= i < |r| ==> r[i] == f.records[f.order[i]]
  {
    seq(|f.order|, i requires 0 <= i < |f.order| => f.records[f.order[i]])
  }

  /** A filed packet upserts: the last writer for a key wins, no key is ever
      listed twice, and every other record is untouched. Unfiled packets
      leave the registry as it was. */
  lemma ReceiveUpserts(f: Found, packet: Option<Value>)
    requires Valid(f)
    ensures var g := Receive(f, packet);
            && Valid(g)
            && (packet.None? || KeyOf(packet.value).None? ==> g == f)
            && (packet.Some? && KeyOf(packet.value).Some? ==>
                  var k := KeyOf(packet.value).value;
                  && g.records == f.records[k := packet.value]
                  && g.records.Keys == f.records.Keys + {k}
                  && (k in f.records ==> g.order == f.order))
  {
    if packet.Some? && KeyOf(packet.value).Some? {
      var k, v := KeyOf(packet.value).value, packet.value;
      if k !in f.records {
        assert Receive(f, packet) == Found(f.order + [k], f.records[k := v]);
        FileNewKey(f, k, v);
      } else {
        assert Receive(f, packet) == Found(f.order, f.records[k := v]);
        RefileKey(f, k, v);
      }
    }
  }

  /** Refiling a packet under a key already seen keeps the registry valid. */
  lemma RefileKey(f: Found, k: Key, v: Value)
    requires Valid(f) && k in f.records && IsAnnouncementFor(v, k)
    ensures Valid(Found(f.order, f.records[k := v]))
    ensures f.records[k := v].Keys == f.records.Keys
  {
  }

  /** Filing a packet under a key not seen before appends the key. */
  lemma FileNewKey(f: Found, k: Key, v: Value)
    requires Valid(f) && k !in f.records && IsAnnouncementFor(v, k)
    ensures Valid(Found(f.order + [k], f.records[k := v]))
  {
    var g := Found(f.order + [k], f.records[k := v]);
    forall i, j | 0 <= i < j < |g.order| ensures g.order[i] != g.order[j] {
      if j == |f.order| {
        assert g.order[i] == f.order[i];
      } else {
        assert g.order[i] == f.order[i] && g.order[j] == f.order[j];
      }
    }
    assert forall k' :: k' in g.records <==> k' in g.order by {
      assert g.order[|f.order|] == k;
      forall k' | k' in g.order ensures k' in g.records {
        var i :| 0 <= i < |g.order| && g.order[i] == k';
        if i < |f.order| {
          assert f.order[i] == k';
        }
      }
      forall k' | k' in f.order ensures k' in g.order {
        var i :| 0 <= i < |f.order| && f.order[i] == k';
        assert g.order[i] == k';
      }
    }
  }

  /** `get_lobbies()` returns one packet per distinct (ip, port), exactly the
      stored ones. */
  lemma LobbiesAreRecords(f: Found)
    requires Valid(f)
    ensures |Lobbies(f)| == |f.records|
    ensures forall v :: v in Lobbies(f) <==> exists k :: k in f.records && f.records[k] == v
  {
    var r := Lobbies(f);
    RegistrySize(f);
    forall v | v in r ensures exists k :: k in f.records && f.records[k] == v {
      var i :| 0 <= i < |r| && r[i] == v;
      var k := f.order[i];
      assert k in f.records && f.records[k] == v;
    }
    forall v | (exists k :: k in f.records && f.records[k] == v) ensures v in r {
      var k :| k in f.records && f.records[k] == v;
      var i :| 0 <= i < |f.order| && f.order[i] == k;
      assert r[i] == v;
    }
  }

  lemma RegistrySize(f: Found)
    requires Valid(f)
    ensures |f.records| == |f.order|
  {
    DistinctCard(f.order);
    var keys := set i | 0 <= i < |f.order| :: f.order[i];
    assert f.records.Keys == keys by {
      forall k | k in f.records ensures k in keys {
        var i :| 0 <= i < |f.order| && f.order[i] == k;
      }
    }
    assert |f.records| == |f.records.Keys|;
  }

  /** A sequence without repetitions has as many distinct elements as entries. */
  lemma {:induction false} DistinctCard<T>(s: seq<T>)
    requires forall i, j :: 0 <= i < j < |s| ==> s[i] != s[j]
    ensures |set i | 0 <= i < |s| :: s[i]| == |s|
  {
    if s != [] {
      var last := s[|s| - 1];
      var init := s[..|s| - 1];
      DistinctCard(init);
      var a := set i | 0 <= i < |init| :: init[i];
      var b := set i | 0 <= i < |s| :: s[i];
      assert b == a + {last} by {
        forall x | x in b ensures x in a + {last} {
          var i :| 0 <= i < |s| && s[i] == x;
          if i < |s| - 1 {
            assert init[i] == x;
          }
        }
        forall x | x in a ensures x in b {
          var i :| 0 <= i < |init| && init[i] == x;
          assert s[i] == x;
        }
        assert s[|s| - 1] == last;
      }
      assert last !in a;
    }
  }

  /** Two announcements from the same (ip, port) under different lobby names
      leave one record, holding the later name. */
  lemma LatestAnnouncementWins(f: Found, first: Value, second: Value)
    requires Valid(f)
    requires KeyOf(first).Some? && KeyOf(second) == KeyOf(first)
    ensures var g := Receive(Receive(f, Some(first)), Some(second));
            var k := KeyOf(first).value;
            && g.records[k] == second
            && |g.order| == |Receive(f, Some(first)).order|
            && |g.records| == |f.records| + (if k in f.records then 0 else 1)
  {
    ReceiveUpserts(f, Some(first));
  }

  /** Announcement to listener: whatever the lobby server broadcasts is filed
      under the server's own (ip, port). */
  lemma AnnouncementFiled(f: Found, payload: map<string, Value>, ip: Value, port: Value)
    requires Valid(f) && payload != map[] && Hashable(ip) && Hashable(port)
    ensures var a := Announce(payload, ip, port).value;
            && KeyOf(a) == Some((ip, port))
            && Receive(f, Some(a)).records[(ip, port)] == a
  {
  }
}

=== FILE: endtoend.dfy ===
/** Properties that span components: what the lobby client builds is what
    the lobby server acts on, what the server announces is what the
    discovery listener files, and the profile row names the host. */
module EndToEnd {
  import opened Wrappers
  import opened Json
  import opened Protocol
  import Client
  import Lobby
  import Discovery
  import Profiles

  /** A `lobby_create` request built from a complete form creates, on the
      server, a lobby with the form's name and passcode, hosted by the
      sender, with no join requests. */
  lemma CreateRequestReachesServer(st: Lobby.State, c: Conn, profile: Value, form: Value, uuid: string)
    requires Lobby.Valid(st) && uuid !in st.lobbies
    requires Field(form, "lobby_name").Ok? && Field(form, "passcode").Ok?
    ensures var m := Obj(Client.CreateLobbyRequest(profile, form).value);
            var r := Lobby.Process(st, c, Some(m), uuid);
            && uuid in r.st.lobbies
            && r.st.lobbies[uuid] == Lobby.Record(uuid, Field(form, "lobby_name").value,
                                                  Field(form, "passcode").value, c, map[])
  {
    var m := Obj(Client.CreateLobbyRequest(profile, form).value);
    assert Lobby.Route(Some(m)) == Some("lobby_create");
  }

  /** The host name announced for a lobby created with the host's loaded
      profile row is the profile's name. */
  lemma ProfileNamesHost(st: Lobby.State, c: Conn, p: Profiles.Profile, form: Value, uuid: string)
    requires Lobby.Valid(st) && uuid !in st.lobbies
    requires Field(form, "lobby_name").Ok? && Field(form, "passcode").Ok?
    ensures var m := Obj(Client.CreateLobbyRequest(Profiles.Row(p), form).value);
            var r := Lobby.Process(st, c, Some(m), uuid);
            r.error.None? && r.st.announcement["host_name"] == Str(p.name)
  {
    var m := Obj(Client.CreateLobbyRequest(Profiles.Row(p), form).value);
    assert Lobby.Route(Some(m)) == Some("lobby_create");
    var payload := Get(m, "payload").value;
    assert Lobby.HostName(payload) == Ok(Str(p.name)) by {
      assert Truthy(Profiles.Row(p));
      assert Item(Profiles.Row(p), 1) == Ok(Str(p.name));
    }
  }

  /** A decision the client builds for a pending request reaches the
      requester as exactly one JOIN_RESULT, "ACCEPTED" for `True`. */
  lemma AcceptanceReachesRequester(st: Lobby.State, c: Conn, lobby: string, request: string, uuid: string)
    requires Lobby.Valid(st) && uuid !in st.lobbies && lobby in st.lobbies && request in st.lobbies[lobby].players
    ensures var m := Obj(Client.JoinDecisionRequest(Str(lobby), Str(request), Bool(true)));
            var r := Lobby.Process(st, c, Some(m), uuid);
            var entry := st.lobbies[lobby].players[request];
            && r.out == [Send(entry.client, JoinResult("ACCEPTED"))]
            && r.st.lobbies[lobby].players[request] == entry.(status := Lobby.Accepted)
  {
    var m := Obj(Client.JoinDecisionRequest(Str(lobby), Str(request), Bool(true)));
    assert Lobby.Route(Some(m)) == Some("join_decision");
    var payload := Get(m, "payload").value;
    assert Lobby.Target(st, payload) == Ok(Some((lobby, request)));
  }

  /** A declined request disappears from the lobby and its requester is told
      "DECLINED". */
  lemma DeclineReachesRequester(st: Lobby.State, c: Conn, lobby: string, request: string, uuid: string)
    requires Lobby.Valid(st) && uuid !in st.lobbies && lobby in st.lobbies && request in st.lobbies[lobby].players
    ensures var m := Obj(Client.JoinDecisionRequest(Str(lobby), Str(request), Bool(false)));
            var r := Lobby.Process(st, c, Some(m), uuid);
            var entry := st.lobbies[lobby].players[request];
            && r.out == [Send(entry.client, JoinResult("DECLINED"))]
            && request !in r.st.lobbies[lobby].players
  {
    var m := Obj(Client.JoinDecisionRequest(Str(lobby), Str(request), Bool(false)));
    assert Lobby.Route(Some(m)) == Some("join_decision");
    var payload := Get(m, "payload").value;
    assert Lobby.Target(st, payload) == Ok(Some((lobby, request)));
  }

  /** After a lobby is created, the next discovery broadcast files it on
      every listener under the server's (ip, port), with the lobby's name
      and an empty password. */
  lemma CreatedLobbyDiscovered(st: Lobby.State, c: Conn, payload: Value, uuid: string,
                               f: Discovery.Found, ip: Value, port: Value)
    requires Lobby.Valid(st) && uuid !in st.lobbies && Discovery.Valid(f)
    requires Lobby.CreateLobby(st, c, payload, uuid).error.None?
    requires Hashable(ip) && Hashable(port)
    ensures var ann := Lobby.CreateLobby(st, c, payload, uuid).st.announcement;
            var a := Discovery.Announce(ann, ip, port);
            var g := Discovery.Receive(f, a);
            && a.Some? && (ip, port) in g.records && g.records[(ip, port)] == a.value
            && a.value.fields[Str("lobby_name")] == Field(payload, "lobby_name").value
            && a.value.fields[Str("lobby_password")] == Str("")
  {
    var ann := Lobby.CreateLobby(st, c, payload, uuid).st.announcement;
    Lobby.CreateAnnouncesWithoutPassword(st, c, payload, uuid, ip, port);
    Discovery.AnnouncementFiled(f, ann, ip, port);
  }

  /** A dict as `json.loads` produces it: every key is a string. */
  predicate DecodedDict(v: Value)
  {
    v.Obj? && forall k :: k in v.fields ==> k.Str?
  }

  /** The server sends `init` with the integer id and the roster keyed by
      integer ids; JSON turns those keys into strings but leaves the id an
      integer, so the client's own id is never a key of its roster. */
  lemma OwnIdNotARosterKey(st: Client.State, id: int, roster: Value)
    requires DecodedDict(roster)
    ensures var r := Client.ProcessMessage(st, Some(Client.Message("init", Pair("player_id", Int(id), "players", roster))));
            && r.st.myId == Int(id) && r.st.players == roster
            && r.st.myId !in r.st.players.fields
  {
    Client.InitSetsIdAndRoster(st, Client.Message("init", Pair("player_id", Int(id), "players", roster)));
  }
}

=== FILE: framing.dfy ===
/** Newline framing of a receive loop: every loop in the networking code
    appends a chunk to a buffer, splits at the first '\n' while one remains,
    hands each complete line to a handler and keeps the rest buffered. */
module Framing {

  /** Lines a sender wrote, each followed by its '\n' delimiter. */
  function Join(lines: seq<string>): string
  {
    if lines == [] then "" else lines[0] + "\n" + Join(lines[1..])
  }

  /** Every line is a complete frame body: it carries no delimiter. */
  predicate Undelimited(lines: seq<string>)
  {
    forall i :: 0 <= i < |lines| ==> '\n' !in lines[i]
  }

  /** All the data of a sequence of reads, in order. */
  function Concat(chunks: seq<string>): string
  {
    if chunks == [] then "" else chunks[0] + Concat(chunks[1..])
  }

  /** Position of the first '\n' in `s`. */
  function FirstNewline(s: string): (i: nat)
    requires '\n' in s
    ensures i < |s| && s[i] == '\n' && '\n' !in s[..i]
  {
    if s[0] == '\n' then 0
    else
      assert s == [s[0]] + s[1..];
      var j := FirstNewline(s[1..]);
      assert s[..j + 1] == [s[0]] + s[1..][..j];
      j + 1
  }

  /** `buffer.split('\n', 1)` on a buffer holding a '\n'. */
  function SplitFirst(buf: string): (p: (string, string))
    requires '\n' in buf
    ensures '\n' !in p.0
    ensures p.0 + "\n" + p.1 == buf
  {
    var i := FirstNewline(buf);
    assert buf == buf[..i] + "\n" + buf[i + 1..];
    (buf[..i], buf[i + 1..])
  }

  /** The inner `while '\n' in buffer` loop: the complete lines of `buf`, in
      order, and the undelimited remainder left buffered. */
  function Extract(buf: string): (r: (seq<string>, string))
    ensures Undelimited(r.0)
    ensures '\n' !in r.1
    ensures Join(r.0) + r.1 == buf
    decreases |buf|
  {
    if '\n' !in buf then ([], buf)
    else
      var p := SplitFirst(buf);
      var e := Extract(p.1);
      var lines := [p.0] + e.0;
      PrependLine(p.0, e.0, e.1);
      (lines, e.1)
  }

  /** Putting one more complete line in front of a decomposition. */
  lemma PrependLine(line: string, lines: seq<string>, rest: string)
    requires '\n' !in line && Undelimited(lines)
    ensures Undelimited([line] + lines)
    ensures Join([line] + lines) + rest == line + "\n" + (Join(lines) + rest)
  {
    var all := [line] + lines;
    assert all[0] == line && all[1..] == lines;
    forall i | 0 <= i < |all| ensures '\n' !in all[i] {
      if i > 0 {
        assert all[i] == lines[i - 1];
      }
    }
  }

  /** The outer receive loop over reads that all carried data: `buffer += data`
      and drain, read after read. Yields every line handed to the handler, in
      order, and what stays buffered. */
  function Receive(buf: string, chunks: seq<string>): (r: (seq<string>, string))
    ensures Undelimited(r.0)
    ensures chunks != [] ==> '\n' !in r.1
    ensures Join(r.0) + r.1 == buf + Concat(chunks)
    decreases |chunks|
  {
    if chunks == [] then ([], buf)
    else
      var e := Extract(buf + chunks[0]);
      var r := Receive(e.1, chunks[1..]);
      ReceiveStep(buf, chunks, e.0, e.1, r.0, r.1);
      (e.0 + r.0, r.1)
  }

  /** One read's lines, put in front of what the later reads yield, account
      for all the data. */
  lemma ReceiveStep(buf: string, chunks: seq<string>, lines: seq<string>, rest: string,
                    more: seq<string>, last: string)
    requires chunks != []
    requires Undelimited(lines) && Join(lines) + rest == buf + chunks[0]
    requires Undelimited(more) && Join(more) + last == rest + Concat(chunks[1..])
    ensures Undelimited(lines + more)
    ensures Join(lines + more) + last == buf + Concat(chunks)
  {
    UndelimitedAppend(lines, more);
    JoinThrough(lines, more, rest, last, buf + chunks[0], Concat(chunks[1..]));
    assert buf + chunks[0] + Concat(chunks[1..]) == buf + Concat(chunks);
  }

  /** Two decompositions that meet at a buffered middle compose. */
  lemma JoinThrough(x: seq<string>, y: seq<string>, mid: string, rest: string, head: string, tail: string)
    requires Join(x) + mid == head && Join(y) + rest == mid + tail
    ensures Join(x + y) + rest == head + tail
  {
    JoinAppend(x, y);
    var jx, jy := Join(x), Join(y);
    assert jx + jy + rest == jx + (jy + rest);
    assert jx + (mid + tail) == (jx + mid) + tail;
  }

  /** Splitting a delimited buffer stops at the first delimiter. */
  lemma SplitFirstOfFrame(line: string, tail: string)
    requires '\n' !in line
    ensures SplitFirst(line + "\n" + tail) == (line, tail)
  {
    var s := line + "\n" + tail;
    var i := FirstNewline(s);
    assert s[|line|] == '\n';
    assert forall k :: 0 <= k < |line| ==> s[k] == line[k];
    assert i == |line|;
    assert s[..i] == line;
    assert s[i + 1..] == tail;
  }

  lemma JoinAppend(a: seq<string>, b: seq<string>)
    ensures Join(a + b) == Join(a) + Join(b)
  {
    if a == [] {
      assert a + b == b;
    } else {
      assert (a + b)[1..] == a[1..] + b;
      JoinAppend(a[1..], b);
    }
  }

  lemma ConcatAppend(a: seq<string>, b: seq<string>)
    ensures Concat(a + b) == Concat(a) + Concat(b)
  {
    if a == [] {
      assert a + b == b;
    } else {
      assert (a + b)[1..] == a[1..] + b;
      ConcatAppend(a[1..], b);
    }
  }

  /** A buffer has exactly one decomposition into complete lines and an
      undelimited remainder, and Extract finds it. */
  lemma {:induction false} ExtractUnique(lines: seq<string>, rest: string)
    requires Undelimited(lines)
    requires '\n' !in rest
    ensures Extract(Join(lines) + rest) == (lines, rest)
  {
    if lines == [] {
      assert Join(lines) + rest == rest;
    } else {
      var tail := Join(lines[1..]) + rest;
      assert Join(lines) + rest == lines[0] + "\n" + tail;
      SplitFirstOfFrame(lines[0], tail);
      UndelimitedSplit([lines[0]], lines[1..]);
      assert [lines[0]] + lines[1..] == lines;
      ExtractUnique(lines[1..], rest);
      assert [lines[0]] + lines[1..] == lines;
    }
  }

  /** Reading a stream chunk by chunk hands over exactly the lines a single
      read of the whole stream would, and leaves the same remainder. */
  lemma {:induction false} ReceiveIsExtract(buf: string, chunks: seq<string>)
    requires '\n' !in buf
    ensures Receive(buf, chunks) == Extract(buf + Concat(chunks))
    decreases |chunks|
  {
    if chunks == [] {
      assert buf + Concat(chunks) == buf;
      ExtractUnique([], buf);
    } else {
      var e := Extract(buf + chunks[0]);
      var rr := Receive(e.1, chunks[1..]);
      ReceiveIsExtract(e.1, chunks[1..]);
      Regroup(buf, chunks[0], Concat(chunks[1..]), e.0, e.1, rr.0, rr.1);
      UndelimitedAppend(e.0, rr.0);
      ExtractUnique(e.0 + rr.0, rr.1);
    }
  }

  /** Re-associates two consecutive drains into one. */
  lemma Regroup(buf: string, c: string, cs: string,
                l1: seq<string>, r1: string, l2: seq<string>, r2: string)
    requires buf + c == Join(l1) + r1
    requires r1 + cs == Join(l2) + r2
    ensures buf + (c + cs) == Join(l1 + l2) + r2
  {
    JoinAppend(l1, l2);
    calc {
      buf + (c + cs);
      (buf + c) + cs;
      Join(l1) + (r1 + cs);
      Join(l1) + (Join(l2) + r2);
    }
  }

  lemma UndelimitedAppend(a: seq<string>, b: seq<string>)
    requires Undelimited(a) && Undelimited(b)
    ensures Undelimited(a + b)
  {
    forall i | 0 <= i < |a + b| ensures '\n' !in (a + b)[i] {
      if i >= |a| {
        assert (a + b)[i] == b[i - |a|];
      }
    }
  }

  lemma UndelimitedSplit(a: seq<string>, b: seq<string>)
    requires Undelimited(a + b)
    ensures Undelimited(a) && Undelimited(b)
  {
    forall i | 0 <= i < |b| ensures '\n' !in b[i] {
      assert b[i] == (a + b)[i + |a|];
    }
    forall i | 0 <= i < |a| ensures '\n' !in a[i] {
      assert a[i] == (a + b)[i];
    }
  }

  /** Where the read boundaries fall does not change what the handler sees. */
  lemma ChunkBoundariesIrrelevant(buf: string, c1: seq<string>, c2: seq<string>)
    requires '\n' !in buf
    requires Concat(c1) == Concat(c2)
    ensures Receive(buf, c1) == Receive(buf, c2)
  {
    ReceiveIsExtract(buf, c1);
    ReceiveIsExtract(buf, c2);
  }

  /** Frames written by a sender whose encoded messages carry no raw newline
      come out, however the stream is cut into reads, as exactly those
      messages in order, with nothing left buffered. */
  lemma FramesRoundTrip(messages: seq<string>, chunks: seq<string>)
    requires Undelimited(messages)
    requires Concat(chunks) == Join(messages)
    ensures Receive("", chunks) == (messages, "")
  {
    ReceiveIsExtract("", chunks);
    assert "" + Concat(chunks) == Join(messages) + "";
    ExtractUnique(messages, "");
  }

  /** A complete line stays undelivered until its delimiter arrives: a read
      without '\n' only grows the buffer. */
  lemma PartialReadBuffers(buf: string, chunk: string)
    requires '\n' !in buf && '\n' !in chunk
    ensures Receive(buf, [chunk]) == ([], buf + chunk)
  {
    assert '\n' !in buf + chunk;
    var e := Extract(buf + chunk);
    assert e == ([], buf + chunk);
    assert [chunk][1..] == [];
    assert Receive(e.1, []) == ([], buf + chunk);
    assert Receive(buf, [chunk]) == (e.0 + Receive(e.1, []).0, Receive(e.1, []).1);
    assert e.0 + Receive(e.1, []).0 == [];
  }

  /** The inner loop as the source writes it, over a mutable buffer. */
  method Drain(buf: string) returns (lines: seq<string>, rest: string)
    ensures Undelimited(lines) && '\n' !in rest
    ensures Join(lines) + rest == buf
    ensures (lines, rest) == Extract(buf)
  {
    lines := [];
    rest := buf;
    while '\n' in rest
      invariant Undelimited(lines)
      invariant Join(lines) + rest == buf
      decreases |rest|
    {
      var p := SplitFirst(rest);
      JoinAppend(lines, [p.0]);
      assert Join([p.0]) == p.0 + "\n" + "" by {
        assert [p.0][1..] == [];
      }
      UndelimitedAppend(lines, [p.0]);
      lines := lines + [p.0];
      rest := p.1;
    }
    ExtractUnique(lines, rest);
  }

  /** One blocking `recv` as the loop sees it: decoded data, where an empty
      chunk is the peer's orderly close, or a `ConnectionResetError`. */
  datatype Read = Data(chunk: string) | Reset

  /** A zero-length read and a reset both break out of the receive loop. */
  predicate Ends(r: Read)
  {
    r.Reset? || r.chunk == ""
  }

  /** What one session's receive loop did with the reads it was given: the
      lines it handed over, in order, what was still buffered, and whether it
      left the loop (after which the socket is closed). */
  datatype Session = Session(lines: seq<string>, buffer: string, closed: bool)

  /** The outer receive loop, from buffer `buf`, over the reads in order. */
  function RunSession(buf: string, recvs: seq<Read>): (r: Session)
    ensures Undelimited(r.lines)
    ensures '\n' !in buf ==> '\n' !in r.buffer
    ensures r.closed <==> exists i :: 0 <= i < |recvs| && Ends(recvs[i])
    decreases |recvs|
  {
    if recvs == [] then Session([], buf, false)
    else if Ends(recvs[0]) then Session([], buf, true)
    else
      var e := Extract(buf + recvs[0].chunk);
      var r := RunSession(e.1, recvs[1..]);
      UndelimitedAppend(e.0, r.lines);
      assert r.closed <==> exists i :: 0 <= i < |recvs| && Ends(recvs[i]) by {
        if r.closed {
          var i :| 0 <= i < |recvs[1..]| && Ends(recvs[1..][i]);
          assert Ends(recvs[i + 1]);
        }
        if exists i :: 0 <= i < |recvs| && Ends(recvs[i]) {
          var i :| 0 <= i < |recvs| && Ends(recvs[i]);
          assert i != 0 && Ends(recvs[1..][i - 1]);
        }
      }
      Session(e.0 + r.lines, r.buffer, r.closed)
  }

  /** Index of the first read that ends the loop, or |recvs| when none does. */
  function FirstEnd(recvs: seq<Read>): (n: nat)
    ensures n <= |recvs|
    ensures forall i :: 0 <= i < n ==> !Ends(recvs[i])
    ensures n < |recvs| ==> Ends(recvs[n])
  {
    if recvs == [] || Ends(recvs[0]) then 0 else 1 + FirstEnd(recvs[1..])
  }

  /** The data of reads that all carried some. */
  function Chunks(recvs: seq<Read>): (cs: seq<string>)
    requires forall i :: 0 <= i < |recvs| ==> recvs[i].Data?
    ensures |cs| == |recvs|
    ensures forall i :: 0 <= i < |recvs| ==> cs[i] == recvs[i].chunk
  {
    if recvs == [] then [] else [recvs[0].chunk] + Chunks(recvs[1..])
  }

  /** A session hands over exactly the complete lines of the data received
      before its first zero-length read or reset, keeps their undelimited
      remainder, and is closed exactly when such a read occurred; nothing
      read after it matters. */
  lemma {:induction false} SessionLines(buf: string, recvs: seq<Read>)
    requires '\n' !in buf
    ensures var n := FirstEnd(recvs);
            var r := RunSession(buf, recvs);
            && r.closed == (n < |recvs|)
            && (r.lines, r.buffer) == Receive(buf, Chunks(recvs[..n]))
    decreases |recvs|
  {
    var n := FirstEnd(recvs);
    if recvs == [] || Ends(recvs[0]) {
      assert recvs[..n] == [];
    } else {
      var e := Extract(buf + recvs[0].chunk);
      SessionLines(e.1, recvs[1..]);
      assert FirstEnd(recvs[1..]) == n - 1;
      assert recvs[..n][1..] == recvs[1..][..n - 1];
      assert Chunks(recvs[..n])[1..] == Chunks(recvs[1..][..n - 1]);
    }
  }

  /** Once a read has ended the session, later recvs change nothing. */
  lemma {:induction false} SessionStopsAtEnd(buf: string, recvs: seq<Read>, later: seq<Read>)
    requires recvs != [] && Ends(recvs[|recvs| - 1])
    ensures RunSession(buf, recvs + later) == RunSession(buf, recvs)
    decreases |recvs|
  {
    assert (recvs + later)[0] == recvs[0];
    if !Ends(recvs[0]) {
      var e := Extract(buf + recvs[0].chunk);
      assert (recvs + later)[1..] == recvs[1..] + later;
      SessionStopsAtEnd(e.1, recvs[1..], later);
    }
  }
}

=== FILE: json.dfy ===
/** Decoded JSON documents, as Python holds them after `json.loads`, and the
    handful of Python operations the networking code applies to them. */
module Json {
  import opened Wrappers

  /** A decoded document. A dict keeps its keys as values: `json.loads` only
      produces string keys, but a roster dict that is later written with an
      integer player id holds that integer as a key. */
  datatype Value =
    | Null
    | Bool(b: bool)
    | Int(i: int)
    | Str(s: string)
    | Arr(items: seq<Value>)
    | Obj(fields: map<Value, Value>)

  /** Python truthiness (`if x:`): None, False, 0, "" and empty containers are false. */
  predicate Truthy(v: Value)
  {
    match v
    case Null => false
    case Bool(b) => b
    case Int(i) => i != 0
    case Str(s) => s != ""
    case Arr(items) => items != []
    case Obj(fields) => fields != map[]
  }

  /** Values Python can use as a dict key; lists and dicts raise `TypeError`. */
  predicate Hashable(v: Value)
  {
    !v.Arr? && !v.Obj?
  }

  /** `v[k]` for a string key: only a dict holding the key answers; every other
      case raises (`KeyError` for a dict, `TypeError` otherwise). */
  function Field(v: Value, k: string): (r: Result<Value>)
    ensures r.Ok? <==> v.Obj? && Str(k) in v.fields
    ensures r.Ok? ==> r.value == v.fields[Str(k)]
  {
    if v.Obj? && Str(k) in v.fields then Ok(v.fields[Str(k)])
    else if v.Obj? then Raised(KeyError)
    else Raised(TypeError)
  }

  /** `v.get(k)`: a missing key reads as None; a non-dict has no `get` and raises. */
  function Get(v: Value, k: string): (r: Result<Value>)
    ensures r.Ok? <==> v.Obj?
    ensures r.Ok? && Str(k) in v.fields ==> r.value == v.fields[Str(k)]
    ensures r.Ok? && Str(k) !in v.fields ==> r.value == Null
  {
    match v
    case Obj(fields) => Ok(if Str(k) in fields then fields[Str(k)] else Null)
    case _ => Raised(AttributeError)
  }

  /** `k in v` for a dict `v`. */
  predicate HasKey(fields: map<Value, Value>, k: string)
  {
    Str(k) in fields
  }

  /** A dict literal with two string keys, `{k1: v1, k2: v2}`. */
  function Pair(k1: string, v1: Value, k2: string, v2: Value): (r: Value)
    requires k1 != k2
    ensures r.Obj? && r.fields.Keys == {Str(k1), Str(k2)}
    ensures r.fields[Str(k1)] == v1 && r.fields[Str(k2)] == v2
  {
    Obj(map[Str(k1) := v1, Str(k2) := v2])
  }

  /** Position `i` of a list or string of length `n`, counting from the end
      when `i` is negative, as Python indexing does. */
  function Slot(n: nat, i: int): (k: nat)
    requires -(n as int) <= i < n
    ensures k < n
  {
    if i < 0 then n + i else i
  }

  /** `v[i]` for an integer index: lists and strings index by position (an
      out-of-range index raises `IndexError`), dicts look the integer up as a
      key, anything else raises `TypeError`. */
  function Item(v: Value, i: int): (r: Result<Value>)
    ensures v.Arr? && -(|v.items| as int) <= i < |v.items| ==> r == Ok(v.items[Slot(|v.items|, i)])
    ensures v.Str? && -(|v.s| as int) <= i < |v.s| ==> r == Ok(Str([v.s[Slot(|v.s|, i)]]))
    ensures r.Ok? ==> v.Arr? || v.Str? || v.Obj?
  {
    match v
    case Arr(items) =>
      if -(|items| as int) <= i < |items| then Ok(items[Slot(|items|, i)]) else Raised(IndexError)
    case Str(s) =>
      if -(|s| as int) <= i < |s| then Ok(Str([s[Slot(|s|, i)]])) else Raised(IndexError)
    case Obj(fields) =>
      if Int(i) in fields then Ok(fields[Int(i)]) else Raised(KeyError)
    case _ => Raised(TypeError)
  }

  /** `v[k] = x`: a dict takes any hashable key; a list takes an in-range
      integer position; anything else raises. */
  function SetItem(v: Value, k: Value, x: Value): (r: Result<Value>)
    ensures v.Obj? && Hashable(k) ==> r == Ok(Obj(v.fields[k := x]))
    ensures v.Obj? && !Hashable(k) ==> r == Raised(TypeError)
    ensures !v.Obj? && !v.Arr? ==> r == Raised(TypeError)
  {
    match v
    case Obj(fields) => if Hashable(k) then Ok(Obj(fields[k := x])) else Raised(TypeError)
    case Arr(items) =>
      if k.Int? || k.Bool? then
        var i := if k.Int? then k.i else if k.b then 1 else 0;
        if -(|items| as int) <= i < |items| then Ok(Arr(items[Slot(|items|, i) := x]))
        else Raised(IndexError)
      else Raised(TypeError)
    case _ => Raised(TypeError)
  }

  /** `d.get(k)` on a dict the program keys by strings, for a key that came
      off the wire: an unhashable key raises `TypeError`, and only a string
      can match. Yields the matching key. */
  function KeyedGet<T>(d: map<string, T>, k: Value): (r: Result<Option<string>>)
    ensures r.Raised? <==> !Hashable(k)
    ensures r.Ok? && r.value.Some? ==> k == Str(r.value.value) && r.value.value in d
    ensures r.Ok? && r.value.None? ==> !(k.Str? && k.s in d)
  {
    if !Hashable(k) then Raised(TypeError)
    else if k.Str? && k.s in d then Ok(Some(k.s))
    else Ok(None)
  }
}

=== FILE: legacy.dfy ===
/** The prototype networking layer under NETWORKING/: a game server whose
    only message handler is commented out, and a client that picks a server
    from the discovery registry and keeps interpreting lines past errors. */
module Legacy {
  import opened Wrappers
  import opened Json
  import Framing
  import Registry
  import Discovery
  import Client
  import opened Protocol

  // ---------------------------------------------------------------- server

  /** The prototype server's `process_message`. The handler table names
      `self.handle_move`, which is commented out, so building the table
      raises `AttributeError` for every decoded message, before any lookup.
      Invalid JSON is caught and ignored. No message changes any state. */
  function ProcessMessage(decoded: Option<Value>): (r: Option<Error>)
    ensures r.Some? <==> decoded.Some?
    ensures r.Some? ==> r.value == AttributeError
  {
    if decoded.None? then None else Some(AttributeError)
  }

  /** The exceptions `handle_client` logs for a run of lines: every line that
      is JSON produces one, and none gets further. */
  function LoggedErrors(lines: seq<string>, decode: string -> Option<Value>): (r: seq<Error>)
    ensures |r| <= |lines|
    ensures forall i :: 0 <= i < |r| ==> r[i] == AttributeError
    decreases |lines|
  {
    if lines == [] then []
    else
      var e := ProcessMessage(decode(lines[0]));
      (if e.Some? then [e.value] else []) + LoggedErrors(lines[1..], decode)
  }

  /** The number of lines that decode. */
  function Decodable(lines: seq<string>, decode: string -> Option<Value>): nat
    decreases |lines|
  {
    if lines == [] then 0
    else (if decode(lines[0]).Some? then 1 else 0) + Decodable(lines[1..], decode)
  }

  /** Every message the prototype server receives is rejected: one logged
      `AttributeError` per decodable line. */
  lemma {:induction false} EveryMessageRejected(lines: seq<string>, decode: string -> Option<Value>)
    ensures |LoggedErrors(lines, decode)| == Decodable(lines, decode)
    decreases |lines|
  {
    if lines != [] {
      EveryMessageRejected(lines[1..], decode);
    }
  }

  /** One connection's `handle_client`: whatever arrives, the registry is
      unchanged except that an ended session's socket is closed (and, as in
      the lobby server, left registered). */
  function HandleClient(s: Registry.Server, c: Conn, recvs: seq<Framing.Read>,
                        decode: string -> Option<Value>): (r: (Registry.Server, seq<Error>))
    ensures Framing.RunSession("", recvs).closed ==> r.0 == Registry.EndSession(s, c)
    ensures !Framing.RunSession("", recvs).closed ==> r.0 == s
    ensures |r.1| == Decodable(Framing.RunSession("", recvs).lines, decode)
  {
    var session := Framing.RunSession("", recvs);
    EveryMessageRejected(session.lines, decode);
    (if session.closed then Registry.EndSession(s, c) else s, LoggedErrors(session.lines, decode))
  }

  // ---------------------------------------------------------------- client

  /** The prototype client: the shared client state plus the server its
      socket is actually connected to, which `connect` can make disagree
      with the recorded host and port. */
  datatype Link = Link(cl: Client.State, peer: Option<Discovery.Key>)

  function Initial(host: Value, port: Value): (l: Link)
    ensures !l.cl.connected && l.peer.None?
  {
    Link(Client.Initial(host, port), None)
  }

  /** A call on the prototype client: the link afterwards, and the exception
      that escaped, if any. */
  datatype Attempt = Attempt(link: Link, error: Option<Error>)

  /** The prototype `connect`: no guard. The target is recorded first, then
      the socket connects; that rejects an ill-typed address, and raises
      `OSError` when the peer is unreachable or the socket is already
      connected. The exception escapes before `connected` is set, so a
      second call leaves the old connection in place under the new host and
      port. */
  function Connect(l: Link, host: Value, port: Value, net: Client.Net): (r: Attempt)
    ensures r.link.cl.host == host && r.link.cl.port == port
    ensures r.error.None? <==> Client.AddressError(host, port, net).None? && !l.cl.connected && net.reachable
    ensures Client.AddressError(host, port, net).Some? ==> r.error == Client.AddressError(host, port, net)
    ensures Client.AddressError(host, port, net).None? && r.error.Some? ==> r.error == Some(OSError)
    ensures r.error.Some? ==> r.link.cl.connected == l.cl.connected && r.link.peer == l.peer
    ensures r.error.None? ==> r.link.cl.connected && r.link.peer == Some((host, port))
    ensures r.link.cl.outbox == l.cl.outbox && r.link.cl.myId == l.cl.myId && r.link.cl.players == l.cl.players
    ensures r.link.cl.closed == l.cl.closed
  {
    var target := l.cl.(host := host, port := port);
    if Client.AddressError(host, port, net).Some? then Attempt(Link(target, l.peer), Client.AddressError(host, port, net))
    else if !l.cl.connected && net.reachable then Attempt(Link(target.(connected := true), Some((host, port))), None)
    else Attempt(Link(target, l.peer), Some(OSError))
  }

  /** After connecting to one server, connecting to another raises, and
      leaves the client recording a host it is not connected to. */
  lemma SecondConnectMisrecords(l: Link, h1: Value, p1: Value, n1: Client.Net, h2: Value, p2: Value, n2: Client.Net)
    requires Connect(l, h1, p1, n1).error.None? && (h1, p1) != (h2, p2)
    ensures var r := Connect(Connect(l, h1, p1, n1).link, h2, p2, n2);
            && r.error == (if Client.AddressError(h2, p2, n2).Some? then Client.AddressError(h2, p2, n2) else Some(OSError))
            && r.link.cl.connected && r.link.peer == Some((h1, p1))
            && (r.link.cl.host, r.link.cl.port) == (h2, p2)
  {
  }

  /** The prototype receive loop: an exception from one line is logged and
      the loop goes on, keeping whatever the failing line had already
      changed. */
  function ReceiveLines(st: Client.State, lines: seq<string>, decode: string -> Option<Value>): (r: Client.State)
    ensures r.connected == st.connected && r.outbox == st.outbox
    decreases |lines|
  {
    if lines == [] then st
    else ReceiveLines(Client.ProcessMessage(st, decode(lines[0])).st, lines[1..], decode)
  }

  /** The loop is a left fold: two runs of lines compose. */
  lemma {:induction false} ReceiveCompose(st: Client.State, a: seq<string>, b: seq<string>,
                                          decode: string -> Option<Value>)
    ensures ReceiveLines(st, a + b, decode) == ReceiveLines(ReceiveLines(st, a, decode), b, decode)
    decreases |a|
  {
    if a != [] {
      assert (a + b)[0] == a[0] && (a + b)[1..] == a[1..] + b;
      ReceiveCompose(Client.ProcessMessage(st, decode(a[0])).st, a[1..], b, decode);
    } else {
      assert a + b == b;
    }
  }

  /** When no line raises, the prototype loop and the lobby client's loop
      leave the same state. */
  lemma {:induction false} LoopsAgreeWithoutErrors(st: Client.State, lines: seq<string>,
                                                   decode: string -> Option<Value>)
    requires Client.ReceiveLines(st, lines, decode).error.None?
    ensures Client.ReceiveLines(st, lines, decode).st == ReceiveLines(st, lines, decode)
    decreases |lines|
  {
    if lines != [] {
      LoopsAgreeWithoutErrors(Client.ProcessMessage(st, decode(lines[0])).st, lines[1..], decode);
    }
  }

  /** An `init` without a roster followed by a roster update: the lobby
      client stops at the first line, the prototype client applies both. */
  lemma BadLineContrast(st: Client.State, bad: string, good: string, id: Value, roster: Value,
                        decode: string -> Option<Value>)
    requires decode(bad) == Some(Client.Message("init", Obj(map[Str("player_id") := id])))
    requires decode(good) == Some(Client.Message("update_players", roster))
    ensures Client.ReceiveLines(st, [bad, good], decode) == Client.Step(st.(myId := id), Some(KeyError))
    ensures ReceiveLines(st, [bad, good], decode) == st.(myId := id, players := roster)
  {
    Client.InitWithoutRosterSetsId(st, decode(bad).value);
    Client.UpdatePlayersReplaces(st.(myId := id), decode(good).value);
    assert [bad, good][1..] == [good] && [good][1..] == [];
    var first := Client.ProcessMessage(st, decode(bad)).st;
    assert first == st.(myId := id);
    assert ReceiveLines(first, [good], decode) == ReceiveLines(st.(myId := id, players := roster), [], decode);
  }

  // ---------------------------------------------------------------- server selection

  /** Position of the first discovered server whose recorded ip is `lanIp`. */
  function FirstAt(order: seq<Discovery.Key>, lanIp: Value): (i: nat)
    ensures i <= |order|
    ensures forall j :: 0 <= j < i ==> order[j].0 != lanIp
    ensures i < |order| ==> order[i].0 == lanIp
  {
    if order == [] then 0
    else if order[0].0 == lanIp then 0
    else 1 + FirstAt(order[1..], lanIp)
  }

  /** The server `start()` connects to. With none discovered, none. A
      "client" takes the first server discovered; a "host" takes the first
      one announcing its own LAN address; any other role connects nowhere. */
  function SelectServer(f: Discovery.Found, role: string, lanIp: Value): (r: Option<Discovery.Key>)
    requires Discovery.Valid(f)
    ensures r.Some? ==> r.value in f.records && Discovery.IsAnnouncementFor(f.records[r.value], r.value)
    ensures f.order == [] ==> r.None?
    ensures role == "client" && f.order != [] ==> r == Some(f.order[0])
    ensures role == "host" ==> (r.Some? <==> exists i :: 0 <= i < |f.order| && f.order[i].0 == lanIp)
    ensures role == "host" && r.Some? ==>
      r.value.0 == lanIp && forall j :: 0 <= j < |f.order| && f.order[j].0 == lanIp ==> r.value in f.order[..j + 1]
    ensures role != "client" && role != "host" ==> r.None?
  {
    // `get_servers()` lists one record per key of `order`
    if f.order == [] then None
    else if role == "client" then Some(f.order[0])
    else if role == "host" then
      var i := FirstAt(f.order, lanIp);
      if i < |f.order| then
        assert forall j :: 0 <= j < |f.order| && f.order[j].0 == lanIp ==> f.order[i] in f.order[..j + 1] by {
          forall j | 0 <= j < |f.order| && f.order[j].0 == lanIp ensures f.order[i] in f.order[..j + 1] {
            assert f.order[..j + 1][i] == f.order[i];
          }
        }
        Some(f.order[i])
      else None
    else None
  }

  /** What `start()` does with the selection: connect to the ip and port its
      announcement carries, letting the socket's exception escape. The
      listener files any hashable ip and port, so an announcement with a
      non-string ip or a non-integer port reaches the socket and raises
      there. */
  function Start(l: Link, f: Discovery.Found, role: string, lanIp: Value, net: Client.Net): (r: Attempt)
    requires Discovery.Valid(f)
    ensures SelectServer(f, role, lanIp).None? ==> r == Attempt(l, None)
    ensures SelectServer(f, role, lanIp).Some? ==>
      var k := SelectServer(f, role, lanIp).value;
      && (r.error.None? <==> Client.AddressError(k.0, k.1, net).None? && !l.cl.connected && net.reachable)
      && (Client.AddressError(k.0, k.1, net).Some? ==> r.error == Client.AddressError(k.0, k.1, net))
      && (Client.AddressError(k.0, k.1, net).None? && r.error.Some? ==> r.error == Some(OSError))
      && (r.error.Some? ==> r.link.cl.connected == l.cl.connected && r.link.peer == l.peer)
      && (r.error.None? ==> r.link.cl.connected && r.link.peer == Some(k))
  {
    match SelectServer(f, role, lanIp)
    case None => Attempt(l, None)
    case Some(k) =>
      var server := f.records[k];
      Connect(l, server.fields[Str("ip")], server.fields[Str("port")], net)
  }

  /** An "Init Lobby" packet with a null ip and a string port is filed by
      the listener, selected by a client, and rejected by the socket with
      TypeError; the client stays unconnected. */
  lemma StartRejectsIllTypedAnnouncement(l: Link, lanIp: Value, net: Client.Net)
    requires !l.cl.connected
    ensures var packet := Obj(map[Str("type") := Str("Init Lobby"), Str("ip") := Null, Str("port") := Str("x")]);
            var f := Discovery.Receive(Discovery.Empty(), Some(packet));
            && Discovery.Valid(f)
            && var r := Start(l, f, "client", lanIp, net);
            && r.error == Some(TypeError) && !r.link.cl.connected && r.link.peer == l.peer
  {
    var packet := Obj(map[Str("type") := Str("Init Lobby"), Str("ip") := Null, Str("port") := Str("x")]);
    assert Discovery.KeyOf(packet) == Some((Null, Str("x")));
    Discovery.FileNewKey(Discovery.Empty(), (Null, Str("x")), packet);
  }

  /** A client starting on a well-formed announcement reaches that server:
      a free socket and a reachable server connect to the first server
      discovered. */
  lemma ClientStartsFirstDiscovered(l: Link, f: Discovery.Found, lanIp: Value, net: Client.Net)
    requires Discovery.Valid(f) && f.order != [] && !l.cl.connected
    requires Client.AddressError(f.order[0].0, f.order[0].1, net).None? && net.reachable
    ensures var r := Start(l, f, "client", lanIp, net);
            && r.error.None? && r.link.cl.connected && r.link.peer == Some(f.order[0])
            && (r.link.cl.host, r.link.cl.port) == f.order[0]
  {
  }
}

=== FILE: lobby.dfy ===
/** The lobby server's command side: the lobby table kept by the lobby
    extension, its four handlers, the dispatch of decoded lines to them, and
    the announcement payload handed to the discovery broadcaster. */
module Lobby {
  import opened Wrappers
  import opened Json
  import opened Protocol
  import Discovery

  /** The message types that have a handler; every other type is logged. */
  const Handlers: set<string> := {"lobby_create", "get_lobbies", "join_request", "join_decision"}

  datatype Status = Pending | Accepted

  /** A join request filed in a lobby's `players` dict. */
  datatype Entry = Entry(client: Conn, name: Value, status: Status)

  /** A lobby record: id, name, clear-text password, host connection and the
      join requests keyed by request id. */
  datatype Record = Record(id: string, name: Value, password: Value, host: Conn, players: map<string, Entry>)

  /** The lobby table (a dict: `order` lists its keys in insertion order) and
      the discovery broadcaster's current payload. */
  datatype State = State(order: seq<string>, lobbies: map<string, Record>, announcement: map<string, Value>)

  /** What a handler or a line leaves behind: the new state, the replies it
      attempted to send, and the exception it raised, if any. */
  datatype Step = Step(st: State, out: seq<Send<Reply>>, error: Option<Error>)

  function Initial(): (st: State)
    ensures Valid(st) && st.lobbies == map[] && st.announcement == map[]
  {
    State([], map[], map[])
  }

  /** Table invariant: each lobby id is listed once and is its record's id. */
  ghost predicate Valid(st: State)
  {
    && (forall i, j :: 0 <= i < j < |st.order| ==> st.order[i] != st.order[j])
    && (forall k :: k in st.lobbies <==> k in st.order)
    && (forall k :: k in st.lobbies ==> st.lobbies[k].id == k)
  }

  // ---------------------------------------------------------------- create

  /** The host display name put in the announcement: `host_profile[1]` when
      the payload carries a truthy profile (a profile row `[id, name, ...]`),
      "Host" otherwise. */
  function HostName(payload: Value): (r: Result<Value>)
    requires payload.Obj?
    ensures !Truthy(Get(payload, "host_profile").value) ==> r == Ok(Str("Host"))
    ensures Truthy(Get(payload, "host_profile").value) ==> r == Item(Get(payload, "host_profile").value, 1)
  {
    var profile := Get(payload, "host_profile").value;
    if Truthy(profile) then Item(profile, 1) else Ok(Str("Host"))
  }

  /** `handle_create_lobby` with `uuid` standing for the new uuid. Reading a
      missing name or password raises before anything changes; a profile
      whose second item cannot be read raises after the lobby is stored but
      before the announcement and the reply. */
  function CreateLobby(st: State, c: Conn, payload: Value, uuid: string): (r: Step)
    requires Valid(st) && uuid !in st.lobbies
    ensures Valid(r.st)
    ensures Field(payload, "lobby_name").Raised? || Field(payload, "lobby_password").Raised? ==>
      r.st == st && r.out == [] && r.error.Some?
    ensures Field(payload, "lobby_name").Ok? && Field(payload, "lobby_password").Ok? ==>
      && r.st.lobbies == st.lobbies[uuid := Record(uuid, Field(payload, "lobby_name").value,
                                                    Field(payload, "lobby_password").value, c, map[])]
      && r.st.order == st.order + [uuid]
    ensures r.error.None? <==>
      Field(payload, "lobby_name").Ok? && Field(payload, "lobby_password").Ok? && HostName(payload).Ok?
    ensures r.error.None? ==>
      && r.out == [Send(c, LobbyCreated(uuid, Field(payload, "lobby_name").value))]
      && r.st.announcement == map["lobby_name" := Field(payload, "lobby_name").value,
                                  "host_name" := HostName(payload).value]
    ensures r.error.Some? ==> r.out == [] && r.st.announcement == st.announcement
  {
    match (Field(payload, "lobby_name"), Field(payload, "lobby_password"))
    case (Raised(e), _) => Step(st, [], Some(e))
    case (_, Raised(e)) => Step(st, [], Some(e))
    case (Ok(name), Ok(password)) =>
      var stored := st.(order := st.order + [uuid],
                        lobbies := st.lobbies[uuid := Record(uuid, name, password, c, map[])]);
      assert Valid(stored) by {
        forall i, j | 0 <= i < j < |stored.order| ensures stored.order[i] != stored.order[j] {
          assert stored.order[i] == st.order[i];
          if j < |st.order| {
            assert stored.order[j] == st.order[j];
          }
        }
        forall k | k in stored.order ensures k in stored.lobbies {
          var i :| 0 <= i < |stored.order| && stored.order[i] == k;
          if i < |st.order| {
            assert st.order[i] == k;
          }
        }
        forall k | k in st.order ensures k in stored.order {
          var i :| 0 <= i < |st.order| && st.order[i] == k;
          assert stored.order[i] == k;
        }
        assert stored.order[|st.order|] == uuid;
      }
      match HostName(payload)
      case Raised(e) => Step(stored, [], Some(e))
      case Ok(host) =>
        Step(stored.(announcement := map["lobby_name" := name, "host_name" := host]),
             [Send(c, LobbyCreated(uuid, name))], None)
  }

  // ---------------------------------------------------------------- list

  /** The decimal rendering of a count, as an f-string prints it. */
  function Decimal(n: nat): (s: string)
    ensures |s| >= 1
    ensures forall i :: 0 <= i < |s| ==> '0' <= s[i] <= '9'
    ensures |s| > 1 ==> s[0] != '0'
  {
    if n < 10 then [Digit(n)] else Decimal(n / 10) + [Digit(n % 10)]
  }

  function Digit(d: nat): (c: char)
    requires d < 10
    ensures '0' <= c <= '9'
  {
    ('0' as int + d) as char
  }

  /** Reading a string of decimal digits back as a number. */
  function ParseDecimal(s: string): nat
    requires forall i :: 0 <= i < |s| ==> '0' <= s[i] <= '9'
  {
    if s == [] then 0
    else ParseDecimal(s[..|s| - 1]) * 10 + (s[|s| - 1] as int - '0' as int)
  }

  /** The rendering is faithful: it reads back as the count it renders. */
  lemma {:induction false} DecimalRoundTrip(n: nat)
    ensures ParseDecimal(Decimal(n)) == n
  {
    if n >= 10 {
      DecimalRoundTrip(n / 10);
      var s := Decimal(n);
      assert s[..|s| - 1] == Decimal(n / 10);
    }
  }

  /** The occupancy column: `f"{len(players)}/4"`. */
  function Occupancy(n: nat): (s: string)
    ensures |s| >= 3 && s[|s| - 2..] == "/4"
    ensures forall i :: 0 <= i < |s| - 2 ==> '0' <= s[i] <= '9'
    ensures ParseDecimal(s[..|s| - 2]) == n
  {
    DecimalRoundTrip(n);
    var d := Decimal(n);
    assert (d + "/4")[..|d|] == d;
    d + "/4"
  }

  /** One `LOBBY_LIST` row per lobby, in creation order. */
  function Summaries(st: State): (r: seq<LobbySummary>)
    requires Valid(st)
    ensures |r| == |st.order|
    ensures forall i :: 0 <= i < |r| ==>
      && r[i].id == st.order[i]
      && r[i].name == st.lobbies[st.order[i]].name
      && r[i].players == Occupancy(|st.lobbies[st.order[i]].players|)
  {
    seq(|st.order|, i requires 0 <= i < |st.order| =>
      var l := st.lobbies[st.order[i]];
      LobbySummary(l.id, l.name, Occupancy(|l.players|)))
  }

  /** `handle_get_lobbies`: one reply to the caller; the table is untouched. */
  function GetLobbies(st: State, c: Conn): (r: Step)
    requires Valid(st)
    ensures r.st == st && r.error.None?
    ensures r.out == [Send(c, LobbyList(Summaries(st)))]
  {
    Step(st, [Send(c, LobbyList(Summaries(st)))], None)
  }

  // ---------------------------------------------------------------- join

  /** The lobby `handle_join_request` resolves: with no `lobby_id` and at
      least one lobby, the first lobby created; otherwise the lobby with that
      id, if any. */
  function ResolveJoin(st: State, payload: Value): (r: Result<Option<string>>)
    requires Valid(st)
    ensures !payload.Obj? ==> r == Raised(AttributeError)
    ensures r.Ok? && r.value.Some? ==> r.value.value in st.lobbies
    ensures payload.Obj? && Get(payload, "lobby_id").value == Null && st.order != [] ==>
      r == Ok(Some(st.order[0]))
    ensures payload.Obj? && Get(payload, "lobby_id").value.Str? && Get(payload, "lobby_id").value.s in st.lobbies ==>
      r == Ok(Some(Get(payload, "lobby_id").value.s))
    ensures payload.Obj? && st.order == [] ==> (r.Ok? ==> r.value.None?)
    ensures payload.Obj? && !(Get(payload, "lobby_id").value == Null && st.order != []) ==>
      (r.Raised? <==> !Hashable(Get(payload, "lobby_id").value))
    ensures payload.Obj? && Hashable(Get(payload, "lobby_id").value)
            && !(Get(payload, "lobby_id").value == Null && st.order != [])
            && !(Get(payload, "lobby_id").value.Str? && Get(payload, "lobby_id").value.s in st.lobbies) ==>
      r == Ok(None)
  {
    match Get(payload, "lobby_id")
    case Raised(e) => Raised(e)
    case Ok(id) =>
      if id == Null && st.order != [] then Ok(Some(st.order[0]))
      else KeyedGet(st.lobbies, id)
  }

  /** `handle_join_request` as it stands: the code that files a PENDING entry
      and notifies the host is commented out, so after resolving the lobby it
      returns without any effect. */
  function JoinRequest(st: State, payload: Value): (r: Step)
    requires Valid(st)
    ensures r.st == st && r.out == []
    ensures r.error.Some? <==> ResolveJoin(st, payload).Raised?
  {
    match ResolveJoin(st, payload)
    case Raised(e) => Step(st, [], Some(e))
    case Ok(_) => Step(st, [], None)
  }

  /** The (lobby id, request id) a `join_decision` payload designates, when
      both are known. Reading a missing field raises `KeyError`, a non-dict
      payload `TypeError`, an unhashable id `TypeError`. */
  function Target(st: State, payload: Value): (r: Result<Option<(string, string)>>)
    requires Valid(st)
    ensures r.Ok? ==> Field(payload, "lobby_id").Ok? && Field(payload, "request_id").Ok? && Field(payload, "accepted").Ok?
    ensures r.Ok? && r.value.Some? ==>
      && r.value.value.0 in st.lobbies
      && r.value.value.1 in st.lobbies[r.value.value.0].players
      && Field(payload, "lobby_id").value == Str(r.value.value.0)
      && Field(payload, "request_id").value == Str(r.value.value.1)
    ensures r.Ok? && r.value.None? ==>
      var l := Field(payload, "lobby_id").value;
      var q := Field(payload, "request_id").value;
      !(l.Str? && l.s in st.lobbies && q.Str? && q.s in st.lobbies[l.s].players)
  {
    match (Field(payload, "lobby_id"), Field(payload, "request_id"), Field(payload, "accepted"))
    case (Raised(e), _, _) => Raised(e)
    case (_, Raised(e), _) => Raised(e)
    case (_, _, Raised(e)) => Raised(e)
    case (Ok(lobbyId), Ok(requestId), Ok(_)) =>
      match KeyedGet(st.lobbies, lobbyId)
      case Raised(e) => Raised(e)
      case Ok(None) => Ok(None)
      case Ok(Some(l)) =>
        match KeyedGet(st.lobbies[l].players, requestId)
        case Raised(e) => Raised(e)
        case Ok(None) => Ok(None)
        case Ok(Some(q)) => Ok(Some((l, q)))
  }

  /** `handle_join_decision`: an accepted request is marked ACCEPTED and kept,
      a declined one is deleted, and in both cases exactly one JOIN_RESULT
      goes to the requester. Unknown ids change nothing and send nothing. */
  function JoinDecision(st: State, payload: Value): (r: Step)
    requires Valid(st)
    ensures Valid(r.st)
    ensures !(Target(st, payload).Ok? && Target(st, payload).value.Some?) ==> r.st == st && r.out == []
    ensures Target(st, payload).Ok? && Target(st, payload).value.Some? ==>
      var (l, q) := Target(st, payload).value.value;
      var entry := st.lobbies[l].players[q];
      var accepted := Truthy(Field(payload, "accepted").value);
      && r.out == [Send(entry.client, JoinResult(if accepted then "ACCEPTED" else "DECLINED"))]
      && r.error.None?
      && r.st.order == st.order && r.st.announcement == st.announcement
      && r.st.lobbies.Keys == st.lobbies.Keys
      && (forall k :: k in st.lobbies && k != l ==> r.st.lobbies[k] == st.lobbies[k])
      && r.st.lobbies[l] == st.lobbies[l].(players := r.st.lobbies[l].players)
      && (accepted ==> r.st.lobbies[l].players == st.lobbies[l].players[q := entry.(status := Accepted)])
      && (!accepted ==> r.st.lobbies[l].players == st.lobbies[l].players - {q})
  {
    match Target(st, payload)
    case Raised(e) => Step(st, [], Some(e))
    case Ok(None) => Step(st, [], None)
    case Ok(Some((l, q))) =>
      var lobby := st.lobbies[l];
      var entry := lobby.players[q];
      var accepted := Truthy(Field(payload, "accepted").value);
      var players := if accepted then lobby.players[q := entry.(status := Accepted)] else lobby.players - {q};
      Step(st.(lobbies := st.lobbies[l := lobby.(players := players)]),
           [Send(entry.client, JoinResult(if accepted then "ACCEPTED" else "DECLINED"))], None)
  }

  // ---------------------------------------------------------------- dispatch

  /** The handler a decoded line reaches: `None` for invalid JSON, a message
      without `get` (not a dict), or a type with no handler. */
  function Route(decoded: Option<Value>): (r: Option<string>)
    ensures r.Some? ==> r.value in Handlers
    ensures r.Some? <==> decoded.Some? && decoded.value.Obj? && Str("type") in decoded.value.fields
                         && decoded.value.fields[Str("type")].Str? && decoded.value.fields[Str("type")].s in Handlers
    ensures r.Some? ==> decoded.value.fields[Str("type")] == Str(r.value)
  {
    if decoded.None? then None
    else match Get(decoded.value, "type")
      case Raised(_) => None
      case Ok(t) => if t.Str? && t.s in Handlers then Some(t.s) else None
  }

  /** `process_message` for one line: `decoded` is what `json.loads` made of
      it (`None` for invalid JSON); `uuid` is the uuid a create would draw. */
  function Process(st: State, c: Conn, decoded: Option<Value>, uuid: string): (r: Step)
    requires Valid(st) && uuid !in st.lobbies
    ensures Valid(r.st)
    ensures Route(decoded).None? ==> r.st == st && r.out == []
    ensures (decoded.Some? && decoded.value.Obj? && Str("type") in decoded.value.fields
             && !Hashable(decoded.value.fields[Str("type")])) ==> r.error == Some(TypeError)
    ensures decoded.None? ==> r.error.None?
    ensures Route(decoded) != Some("lobby_create") ==> r.st.lobbies.Keys == st.lobbies.Keys
    ensures Route(decoded) == Some("lobby_create") ==> r.st.lobbies.Keys <= st.lobbies.Keys + {uuid}
  {
    match Route(decoded)
    case None =>
      var error :=
        if decoded.None? then None
        else if !decoded.value.Obj? then Some(AttributeError)
        else if !Hashable(Get(decoded.value, "type").value) then Some(TypeError)
        else None;
      Step(st, [], error)
    case Some(h) =>
      var payload := Get(decoded.value, "payload").value;
      if h == "lobby_create" then CreateLobby(st, c, payload, uuid)
      else if h == "get_lobbies" then GetLobbies(st, c)
      else if h == "join_request" then JoinRequest(st, payload)
      else JoinDecision(st, payload)
  }

  /** No lobby holds a join request. Nothing in the server files one (the
      filing code of `handle_join_request` is commented out), so this holds
      in every reachable state. */
  ghost predicate NoRequests(st: State)
  {
    forall k :: k in st.lobbies ==> st.lobbies[k].players == map[]
  }

  /** Every line keeps the request tables empty; in particular a
      `join_decision` can never find its request and is a no-op. */
  lemma RequestsNeverFiled(st: State, c: Conn, decoded: Option<Value>, uuid: string)
    requires Valid(st) && uuid !in st.lobbies && NoRequests(st)
    ensures NoRequests(Process(st, c, decoded, uuid).st)
    ensures Route(decoded) == Some("join_decision") ==>
      Process(st, c, decoded, uuid).st == st && Process(st, c, decoded, uuid).out == []
  {
    match Route(decoded)
    case None =>
    case Some(h) =>
      var payload := Get(decoded.value, "payload").value;
      if h == "lobby_create" {
        CreateFilesNoRequest(st, c, payload, uuid);
      } else if h == "join_decision" {
        DecisionFindsNoRequest(st, payload);
      }
  }

  /** A create stores its lobby with an empty request table. */
  lemma CreateFilesNoRequest(st: State, c: Conn, payload: Value, uuid: string)
    requires Valid(st) && uuid !in st.lobbies && NoRequests(st)
    ensures NoRequests(CreateLobby(st, c, payload, uuid).st)
  {
  }

  /** With no request filed, a decision finds none. */
  lemma DecisionFindsNoRequest(st: State, payload: Value)
    requires Valid(st) && NoRequests(st)
    ensures JoinDecision(st, payload).st == st && JoinDecision(st, payload).out == []
  {
    assert !(Target(st, payload).Ok? && Target(st, payload).value.Some?);
  }

  /** Hence every listed lobby shows an occupancy of "0/4". */
  lemma OccupancyAlwaysZero(st: State)
    requires Valid(st) && NoRequests(st)
    ensures forall i :: 0 <= i < |Summaries(st)| ==> Summaries(st)[i].players == "0/4"
  {
    assert Occupancy(0) == "0/4";
  }

  /** Fresh uuids: distinct and not yet lobby ids. */
  ghost predicate FreshIds(st: State, uuids: seq<string>)
  {
    && (forall i, j :: 0 <= i < j < |uuids| ==> uuids[i] != uuids[j])
    && (forall i :: 0 <= i < |uuids| ==> uuids[i] !in st.lobbies)
  }

  /** `handle_client`'s inner loop: each complete line is processed in order;
      an exception in one is logged and the next line is still processed. A
      create draws the next id from `uuids`. */
  function ServeLines(st: State, c: Conn, lines: seq<string>, decode: string -> Option<Value>,
                      uuids: seq<string>): (r: Step)
    requires Valid(st) && FreshIds(st, uuids) && |lines| <= |uuids|
    ensures Valid(r.st)
    decreases |lines|
  {
    if lines == [] then Step(st, [], None)
    else
      var d := decode(lines[0]);
      var s := Process(st, c, d, uuids[0]);
      var rest := Remaining(d, uuids);
      RemainingFresh(st, c, d, uuids);
      var t := ServeLines(s.st, c, lines[1..], decode, rest);
      Step(t.st, s.out + t.out, t.error)
  }

  /** The uuids left after processing one line: a create consumes one. */
  function Remaining(d: Option<Value>, uuids: seq<string>): seq<string>
    requires |uuids| >= 1
  {
    if Route(d) == Some("lobby_create") then uuids[1..] else uuids
  }

  /** What is left of a fresh supply stays fresh for the next state. */
  lemma RemainingFresh(st: State, c: Conn, d: Option<Value>, uuids: seq<string>)
    requires Valid(st) && FreshIds(st, uuids) && |uuids| >= 1
    ensures FreshIds(Process(st, c, d, uuids[0]).st, Remaining(d, uuids))
  {
    var s := Process(st, c, d, uuids[0]);
    var rest := Remaining(d, uuids);
    if Route(d) == Some("lobby_create") {
      forall i | 0 <= i < |rest| ensures rest[i] !in s.st.lobbies {
        assert rest[i] == uuids[i + 1];
      }
    }
  }

  /** Across a whole session the request tables stay empty. */
  lemma {:induction false} SessionFilesNoRequests(st: State, c: Conn, lines: seq<string>,
                                                  decode: string -> Option<Value>, uuids: seq<string>)
    requires Valid(st) && FreshIds(st, uuids) && |lines| <= |uuids| && NoRequests(st)
    ensures NoRequests(ServeLines(st, c, lines, decode, uuids).st)
    decreases |lines|
  {
    if lines != [] {
      var d := decode(lines[0]);
      RequestsNeverFiled(st, c, d, uuids[0]);
      RemainingFresh(st, c, d, uuids);
      SessionFilesNoRequests(Process(st, c, d, uuids[0]).st, c, lines[1..], decode, Remaining(d, uuids));
    }
  }

  /** One step of the session loop: the first line, then the rest. */
  lemma ServeUnfold(st: State, c: Conn, lines: seq<string>, decode: string -> Option<Value>,
                    uuids: seq<string>)
    requires Valid(st) && FreshIds(st, uuids) && |lines| <= |uuids| && lines != []
    ensures var d := decode(lines[0]);
            var s := Process(st, c, d, uuids[0]);
            && FreshIds(s.st, Remaining(d, uuids))
            && |lines[1..]| <= |Remaining(d, uuids)|
            && ServeLines(st, c, lines, decode, uuids).st
               == ServeLines(s.st, c, lines[1..], decode, Remaining(d, uuids)).st
            && ServeLines(st, c, lines, decode, uuids).out
               == s.out + ServeLines(s.st, c, lines[1..], decode, Remaining(d, uuids)).out
  {
    RemainingFresh(st, c, decode(lines[0]), uuids);
  }

  /** A session starting with an undecodable line continues from the
      unchanged state with the same uuids. */
  lemma DropFirst(st: State, c: Conn, bad: string, after: seq<string>, decode: string -> Option<Value>,
                  uuids: seq<string>)
    requires Valid(st) && FreshIds(st, uuids) && 1 + |after| <= |uuids|
    requires decode(bad).None?
    ensures ServeLines(st, c, [bad] + after, decode, uuids).st == ServeLines(st, c, after, decode, uuids).st
    ensures ServeLines(st, c, [bad] + after, decode, uuids).out == ServeLines(st, c, after, decode, uuids).out
  {
    ServeUnfold(st, c, [bad] + after, decode, uuids);
    assert ([bad] + after)[0] == bad && ([bad] + after)[1..] == after;
  }

  /** Two sessions that share their first line agree when their tails agree
      from the state that line leaves. */
  lemma SameHead(st: State, c: Conn, a: seq<string>, b: seq<string>, decode: string -> Option<Value>,
                 uuids: seq<string>)
    requires Valid(st) && FreshIds(st, uuids) && |a| <= |uuids| && |b| <= |uuids|
    requires a != [] && b != [] && a[0] == b[0]
    requires var d := decode(a[0]);
             var s := Process(st, c, d, uuids[0]);
             && FreshIds(s.st, Remaining(d, uuids))
             && ServeLines(s.st, c, a[1..], decode, Remaining(d, uuids)).st
                == ServeLines(s.st, c, b[1..], decode, Remaining(d, uuids)).st
             && ServeLines(s.st, c, a[1..], decode, Remaining(d, uuids)).out
                == ServeLines(s.st, c, b[1..], decode, Remaining(d, uuids)).out
    ensures ServeLines(st, c, a, decode, uuids).st == ServeLines(st, c, b, decode, uuids).st
    ensures ServeLines(st, c, a, decode, uuids).out == ServeLines(st, c, b, decode, uuids).out
  {
    ServeUnfold(st, c, a, decode, uuids);
    ServeUnfold(st, c, b, decode, uuids);
  }

  /** A line `json.loads` rejects is dropped without trace: the lines after
      it are processed exactly as if it had never been sent. */
  lemma {:induction false} InvalidLineDropped(st: State, c: Conn, before: seq<string>, bad: string,
                                              after: seq<string>, decode: string -> Option<Value>,
                                              uuids: seq<string>)
    requires Valid(st) && FreshIds(st, uuids) && |before| + 1 + |after| <= |uuids|
    requires decode(bad).None?
    ensures ServeLines(st, c, before + [bad] + after, decode, uuids).st
         == ServeLines(st, c, before + after, decode, uuids).st
    ensures ServeLines(st, c, before + [bad] + after, decode, uuids).out
         == ServeLines(st, c, before + after, decode, uuids).out
    decreases |before|
  {
    if before == [] {
      assert before + [bad] + after == [bad] + after && before + after == after;
      DropFirst(st, c, bad, after, decode, uuids);
    } else {
      var longer := before + [bad] + after;
      var shorter := before + after;
      assert longer[0] == before[0] && longer[1..] == before[1..] + [bad] + after;
      assert shorter[0] == before[0] && shorter[1..] == before[1..] + after;
      var d := decode(before[0]);
      RemainingFresh(st, c, d, uuids);
      InvalidLineDropped(Process(st, c, d, uuids[0]).st, c, before[1..], bad, after, decode, Remaining(d, uuids));
      SameHead(st, c, longer, shorter, decode, uuids);
    }
  }

  // ---------------------------------------------------------------- cross-cutting

  /** Right after a create, the new lobby is listed last, with its name and
      an occupancy of "0/4"; earlier rows are unchanged. */
  lemma CreateThenList(st: State, c: Conn, payload: Value, uuid: string)
    requires Valid(st) && uuid !in st.lobbies
    requires Field(payload, "lobby_name").Ok? && Field(payload, "lobby_password").Ok?
    ensures var r := CreateLobby(st, c, payload, uuid);
            Summaries(r.st) == Summaries(st) + [LobbySummary(uuid, Field(payload, "lobby_name").value, "0/4")]
  {
    var r := CreateLobby(st, c, payload, uuid);
    var a := Summaries(r.st);
    var b := Summaries(st) + [LobbySummary(uuid, Field(payload, "lobby_name").value, "0/4")];
    assert Occupancy(0) == "0/4";
    forall i | 0 <= i < |a| ensures a[i] == b[i] {
      if i < |st.order| {
        assert r.st.order[i] == st.order[i];
        assert st.order[i] != uuid;
      }
    }
  }

  /** The scenario of a new server: creating "Alpha" with password "pw"
      and listing yields exactly one lobby, named "Alpha", at "0/4". */
  lemma AlphaScenario(c: Conn, uuid: string)
    ensures var payload := Obj(map[Str("lobby_name") := Str("Alpha"), Str("lobby_password") := Str("pw")]);
            var r := Process(Initial(), c, Some(Obj(map[Str("type") := Str("lobby_create"), Str("payload") := payload])), uuid);
            var l := GetLobbies(r.st, c);
            l.out == [Send(c, LobbyList([LobbySummary(uuid, Str("Alpha"), "0/4")]))]
  {
    var payload := Obj(map[Str("lobby_name") := Str("Alpha"), Str("lobby_password") := Str("pw")]);
    var msg := Obj(map[Str("type") := Str("lobby_create"), Str("payload") := payload]);
    AlphaMessage(payload, msg);
    var r := Process(Initial(), c, Some(msg), uuid);
    assert r == CreateLobby(Initial(), c, payload, uuid);
    AlphaPayload(payload);
    CreateThenList(Initial(), c, payload, uuid);
    assert Summaries(Initial()) == [];
    assert Summaries(r.st) == [LobbySummary(uuid, Str("Alpha"), "0/4")];
    assert GetLobbies(r.st, c).out == [Send(c, LobbyList(Summaries(r.st)))];
  }

  lemma AlphaMessage(payload: Value, msg: Value)
    requires msg == Obj(map[Str("type") := Str("lobby_create"), Str("payload") := payload])
    ensures Route(Some(msg)) == Some("lobby_create")
    ensures Get(msg, "payload") == Ok(payload)
  {
    assert Str("type") != Str("payload");
    assert "lobby_create" in Handlers;
  }

  lemma AlphaPayload(payload: Value)
    requires payload == Obj(map[Str("lobby_name") := Str("Alpha"), Str("lobby_password") := Str("pw")])
    ensures Field(payload, "lobby_name") == Ok(Str("Alpha"))
    ensures Field(payload, "lobby_password").Ok?
  {
    assert Str("lobby_name") != Str("lobby_password");
  }

  /** What a successful create makes the discovery broadcaster send: the
      lobby's name and host name, and an empty `lobby_password` however the
      lobby is protected, because the announcement payload has no
      "password" key. */
  lemma CreateAnnouncesWithoutPassword(st: State, c: Conn, payload: Value, uuid: string, ip: Value, port: Value)
    requires Valid(st) && uuid !in st.lobbies
    requires CreateLobby(st, c, payload, uuid).error.None?
    ensures var a := Discovery.Announce(CreateLobby(st, c, payload, uuid).st.announcement, ip, port);
            && a.Some?
            && a.value.fields[Str("lobby_name")] == Field(payload, "lobby_name").value
            && a.value.fields[Str("host_name")] == HostName(payload).value
            && a.value.fields[Str("lobby_password")] == Str("")
  {
    var r := CreateLobby(st, c, payload, uuid);
    Discovery.AnnounceNamed(Field(payload, "lobby_name").value, HostName(payload).value, ip, port);
  }

  /** `join_request` never changes the table or sends, whatever it carries. */
  lemma JoinRequestInert(st: State, c: Conn, msg: Value, uuid: string)
    requires Valid(st) && uuid !in st.lobbies
    requires Route(Some(msg)) == Some("join_request")
    ensures Process(st, c, Some(msg), uuid).st == st
    ensures Process(st, c, Some(msg), uuid).out == []
  {
  }
}

=== FILE: menu.dfy ===
/** The start menu's keyboard state machine: a cursor over four options, the
    option actions, and the popups they open. Whether a stored profile
    exists is an input. */
module Menu {
  import opened Wrappers
  import Scenes
  import Stacks

  const Options: seq<string> := ["Singleplayer", "Multiplayer", "Options", "Quit"]

  /** A position in the option list. */
  type Cursor = i: int | 0 <= i < 4

  datatype Key = Up | Down | Return | Escape | OtherKey

  /** `selected`, whether the multiplayer mode popup is showing, and whether
      the profile-creation popup has been shown. */
  datatype Menu = Menu(selected: Cursor, modePopup: bool, profilePopup: bool)

  function Initial(): (m: Menu)
    ensures m.selected == 0 && !m.modePopup && !m.profilePopup
  {
    Menu(0, false, false)
  }

  /** `handle_menu_action(option)`: both play options need a profile, and
      without one open the profile popup instead; Singleplayer starts a
      game, Multiplayer opens the mode popup, Quit quits, anything else
      does nothing. */
  function MenuAction(m: Menu, option: string, hasProfile: bool): (r: (Menu, Option<Scenes.Command>))
    ensures (option == "Singleplayer" || option == "Multiplayer") && !hasProfile ==>
      r == (m.(profilePopup := true), None)
    ensures option == "Singleplayer" && hasProfile ==> r == (m, Some(Scenes.Command("PUSH", Some(Scenes.Game))))
    ensures option == "Multiplayer" && hasProfile ==> r == (m.(modePopup := true), None)
    ensures option == "Quit" ==> r == (m, Some(Scenes.Command("QUIT", None)))
    ensures option !in {"Singleplayer", "Multiplayer", "Quit"} ==> r == (m, None)
  {
    if option == "Singleplayer" then
      if !hasProfile then (m.(profilePopup := true), None)
      else (m, Some(Scenes.Command("PUSH", Some(Scenes.Game))))
    else if option == "Multiplayer" then
      if !hasProfile then (m.(profilePopup := true), None)
      else (m.(modePopup := true), None)
    else if option == "Quit" then (m, Some(Scenes.Command("QUIT", None)))
    else (m, None)
  }

  /** `handle_keydown`: ignored while the mode popup shows; UP and DOWN move
      the cursor cyclically, RETURN runs the selected option, ESCAPE quits. */
  function KeyDown(m: Menu, key: Key, hasProfile: bool): (r: (Menu, Option<Scenes.Command>))
    ensures m.modePopup ==> r == (m, None)
    ensures !m.modePopup && key == Up ==> r.1.None? && r.0 == m.(selected := if m.selected == 0 then 3 else m.selected - 1)
    ensures !m.modePopup && key == Down ==> r.1.None? && r.0 == m.(selected := if m.selected == 3 then 0 else m.selected + 1)
    ensures !m.modePopup && key == Return ==> r == MenuAction(m, Options[m.selected], hasProfile)
    ensures !m.modePopup && key == Escape ==> r == (m, Some(Scenes.Command("QUIT", None)))
    ensures key == OtherKey ==> r == (m, None)
  {
    if m.modePopup then (m, None)
    else match key
      case Up => (m.(selected := (m.selected - 1) % |Options|), None)
      case Down => (m.(selected := (m.selected + 1) % |Options|), None)
      case Return => MenuAction(m, Options[m.selected], hasProfile)
      case Escape => (m, Some(Scenes.Command("QUIT", None)))
      case OtherKey => (m, None)
  }

  /** UP and DOWN undo each other. */
  lemma UpDownInverse(m: Menu, hasProfile: bool)
    requires !m.modePopup
    ensures KeyDown(KeyDown(m, Up, hasProfile).0, Down, hasProfile).0 == m
    ensures KeyDown(KeyDown(m, Down, hasProfile).0, Up, hasProfile).0 == m
  {
  }

  /** A run of key presses, results discarded. */
  function Presses(m: Menu, keys: seq<Key>, hasProfile: bool): Menu
    decreases |keys|
  {
    if keys == [] then m else Presses(KeyDown(m, keys[0], hasProfile).0, keys[1..], hasProfile)
  }

  /** While the mode popup shows, no sequence of keys changes the menu. */
  lemma {:induction false} PopupFreezesMenu(m: Menu, keys: seq<Key>, hasProfile: bool)
    requires m.modePopup
    ensures Presses(m, keys, hasProfile) == m
    decreases |keys|
  {
    if keys != [] {
      PopupFreezesMenu(m, keys[1..], hasProfile);
    }
  }

  /** Four presses of the same arrow bring the cursor back. */
  lemma FullCycle(m: Menu, key: Key, hasProfile: bool)
    requires !m.modePopup && (key == Up || key == Down)
    ensures Presses(m, [key, key, key, key], hasProfile) == m
  {
    var m1 := KeyDown(m, key, hasProfile).0;
    var m2 := KeyDown(m1, key, hasProfile).0;
    var m3 := KeyDown(m2, key, hasProfile).0;
    var m4 := KeyDown(m3, key, hasProfile).0;
    assert m4 == m;
    assert [key, key, key, key][1..] == [key, key, key];
    assert [key, key, key][1..] == [key, key];
    assert [key, key][1..] == [key];
    assert Presses(m3, [key], hasProfile) == Presses(m4, [], hasProfile);
    assert Presses(m2, [key, key], hasProfile) == Presses(m3, [key], hasProfile);
    assert Presses(m1, [key, key, key], hasProfile) == Presses(m2, [key, key], hasProfile);
    assert Presses(m, [key, key, key, key], hasProfile) == Presses(m1, [key, key, key], hasProfile);
  }

  /** From the initial menu, UP then RETURN selects "Quit", wrapping past
      the top, and quits. */
  lemma UpReturnQuits(hasProfile: bool)
    ensures var m := KeyDown(Initial(), Up, hasProfile).0;
            m.selected == 3 && KeyDown(m, Return, hasProfile).1 == Some(Scenes.Command("QUIT", None))
  {
  }

  /** With a profile, RETURN on "Singleplayer" puts a game on top of the
      scene stack. */
  lemma SingleplayerStartsGame(a: Scenes.App)
    ensures var r := KeyDown(Initial(), Return, true);
            var d := Scenes.Dispatch(a, r.1);
            d.Ok? && Stacks.Peek(d.value.scenes) == Ok(Some(Scenes.Game))
  {
    Stacks.PushThenPeek(a.scenes, Some(Scenes.Game));
  }
}

=== FILE: profiles.dfy ===
/** The local player profile store: the profile table's rows, profile
    creation with the table's column defaults, and the stats update applied
    after a game. */
module Profiles {
  import opened Wrappers
  import opened Json

  /** One row of the profile table. */
  datatype Profile = Profile(localId: string, name: string, gamesPlayed: int, wins: int, losses: int,
                             bestSurvival: int, createdAt: string)

  /** The table, rows in storage order. `local_id` is the primary key. */
  type Table = seq<Profile>

  ghost predicate Valid(t: Table)
  {
    forall i, j :: 0 <= i < j < |t| ==> t[i].localId != t[j].localId
  }

  /** `load_profile`: the first stored row, if any. */
  function Load(t: Table): (r: Option<Profile>)
    ensures r.None? <==> t == []
    ensures r.Some? ==> r.value == t[0]
  {
    if t == [] then None else Some(t[0])
  }

  /** `create_profile(name)` with `localId` for the uuid and `createdAt` for
      the clock: one new row, with every counter at its default 0. */
  function CreateProfile(t: Table, localId: string, name: string, createdAt: string): (r: Table)
    requires Valid(t) && forall i :: 0 <= i < |t| ==> t[i].localId != localId
    ensures Valid(r)
    ensures |r| == |t| + 1 && r[..|t|] == t
    ensures var p := r[|t|];
            && p.localId == localId && p.name == name && p.createdAt == createdAt
            && p.gamesPlayed == 0 && p.wins == 0 && p.losses == 0 && p.bestSurvival == 0
  {
    t + [Profile(localId, name, 0, 0, 0, 0, createdAt)]
  }

  /** A profile's counters after one game. */
  function Tally(p: Profile, win: bool, loss: bool, survival: Option<int>): (q: Profile)
    ensures q.localId == p.localId && q.name == p.name && q.createdAt == p.createdAt
    ensures q.gamesPlayed == p.gamesPlayed + 1
    ensures q.wins == p.wins + (if win then 1 else 0)
    ensures q.losses == p.losses + (if loss then 1 else 0)
    ensures survival.None? ==> q.bestSurvival == p.bestSurvival
    ensures survival.Some? ==> q.bestSurvival >= p.bestSurvival && q.bestSurvival >= survival.value
    ensures survival.Some? ==> q.bestSurvival == p.bestSurvival || q.bestSurvival == survival.value
  {
    var best := if survival.Some? && survival.value > p.bestSurvival then survival.value else p.bestSurvival;
    p.(gamesPlayed := p.gamesPlayed + 1,
       wins := p.wins + (if win then 1 else 0),
       losses := p.losses + (if loss then 1 else 0),
       bestSurvival := best)
  }

  /** `update_stats`: the counters of the loaded profile are recomputed and
      written back to every row carrying its `local_id`; with no profile
      stored, nothing happens. */
  function UpdateStats(t: Table, win: bool, loss: bool, survival: Option<int>): (r: Table)
    ensures |r| == |t|
    ensures t == [] ==> r == t
    ensures t != [] ==> r[0] == Tally(t[0], win, loss, survival)
    ensures forall i :: 0 <= i < |t| && t[i].localId != t[0].localId ==> r[i] == t[i]
  {
    if t == [] then t
    else
      var q := Tally(t[0], win, loss, survival);
      seq(|t|, i requires 0 <= i < |t| =>
        if t[i].localId == q.localId
        then t[i].(gamesPlayed := q.gamesPlayed, wins := q.wins, losses := q.losses, bestSurvival := q.bestSurvival)
        else t[i])
  }

  /** With unique ids the update touches the loaded row only, and keeps the
      table's ids unique. */
  lemma UpdateTouchesLoadedRow(t: Table, win: bool, loss: bool, survival: Option<int>)
    requires Valid(t) && t != []
    ensures var r := UpdateStats(t, win, loss, survival);
            && Valid(r) && r[1..] == t[1..]
            && Load(r) == Some(Tally(t[0], win, loss, survival))
  {
    var r := UpdateStats(t, win, loss, survival);
    assert forall i :: 1 <= i < |t| ==> t[i].localId != t[0].localId;
    assert forall i :: 0 <= i < |t| ==> r[i].localId == t[i].localId;
  }

  /** The best survival time never decreases, whatever the game's outcome. */
  lemma BestNeverDecreases(t: Table, win: bool, loss: bool, survival: Option<int>)
    requires t != []
    ensures UpdateStats(t, win, loss, survival)[0].bestSurvival >= t[0].bestSurvival
  {
  }

  /** A game reported as neither a win nor a loss only counts as played. */
  lemma NeutralGame(t: Table)
    requires t != []
    ensures var p := UpdateStats(t, false, false, None)[0];
            p == t[0].(gamesPlayed := t[0].gamesPlayed + 1)
  {
  }

  /** A game reported as both a win and a loss counts as both. */
  lemma WinAndLossBothCounted(t: Table)
    requires t != []
    ensures var p := UpdateStats(t, true, true, None)[0];
            p.wins == t[0].wins + 1 && p.losses == t[0].losses + 1 && p.gamesPlayed == t[0].gamesPlayed + 1
  {
  }

  /** Games played always bound wins plus losses, as long as no single game
      is reported as both. */
  ghost predicate Consistent(p: Profile)
  {
    0 <= p.wins && 0 <= p.losses && p.wins + p.losses <= p.gamesPlayed
  }

  lemma {:induction false} UpdatesKeepConsistent(t: Table, games: seq<(bool, bool, Option<int>)>)
    requires t != [] && Consistent(t[0])
    requires forall i :: 0 <= i < |games| ==> !(games[i].0 && games[i].1)
    ensures Consistent(Replay(t, games)[0])
    decreases |games|
  {
    if games != [] {
      var g := games[|games| - 1];
      UpdatesKeepConsistent(t, games[..|games| - 1]);
      assert games[|games| - 1] == g;
    }
  }

  /** One profile's counters after a run of games, each tallied in turn. */
  function TallyAll(p: Profile, games: seq<(bool, bool, Option<int>)>): (q: Profile)
    ensures q.localId == p.localId
    decreases |games|
  {
    if games == [] then p
    else
      var g := games[|games| - 1];
      Tally(TallyAll(p, games[..|games| - 1]), g.0, g.1, g.2)
  }

  /** A run of games reported one after another. */
  function Replay(t: Table, games: seq<(bool, bool, Option<int>)>): (r: Table)
    ensures |r| == |t|
    ensures t == [] ==> r == []
    decreases |games|
  {
    if games == [] then t
    else
      var g := games[|games| - 1];
      UpdateStats(Replay(t, games[..|games| - 1]), g.0, g.1, g.2)
  }

  /** With unique ids, replaying games tallies the loaded profile by every
      game in order, keeps the ids unique, and changes no other row. */
  lemma {:induction false} ReplayTalliesLoaded(t: Table, games: seq<(bool, bool, Option<int>)>)
    requires Valid(t) && t != []
    ensures var r := Replay(t, games);
            Valid(r) && r[0] == TallyAll(t[0], games) && r[1..] == t[1..]
    decreases |games|
  {
    if games != [] {
      var g := games[|games| - 1];
      ReplayTalliesLoaded(t, games[..|games| - 1]);
      UpdateTouchesLoadedRow(Replay(t, games[..|games| - 1]), g.0, g.1, g.2);
    }
  }

  /** A profile created on an empty table is the one loaded, with all
      counters at zero. */
  lemma CreatedIsLoaded(localId: string, name: string, createdAt: string)
    ensures Load(CreateProfile([], localId, name, createdAt))
         == Some(Profile(localId, name, 0, 0, 0, 0, createdAt))
  {
  }

  /** The loaded row as the lobby code receives it (`host_profile`): the
      tuple (local_id, name, games_played, wins, losses, best_survival_record). */
  function Row(p: Profile): (v: Value)
    ensures v.Arr? && |v.items| == 6 && v.items[1] == Str(p.name)
  {
    Arr([Str(p.localId), Str(p.name), Int(p.gamesPlayed), Int(p.wins), Int(p.losses), Int(p.bestSurvival)])
  }
}

=== FILE: protocol.dfy ===
/** Session-level vocabulary shared by the servers: connections, positions,
    the replies a server writes, and its outbox of attempted sends. */
module Protocol {
  import opened Json

  /** An accepted socket. The source keys its maps by the socket object, so a
      connection is identified by an opaque handle. */
  type Conn = nat

  /** A player position, `[x, y]` on the wire. */
  datatype Pos = Pos(x: int, y: int)

  /** One row of a `LOBBY_LIST` reply. */
  datatype LobbySummary = LobbySummary(id: string, name: Value, players: string)

  /** The server-to-client messages of the lobby server. */
  datatype Reply =
    | Init(playerId: int, players: map<int, Pos>)
    | UpdatePlayers(players: map<int, Pos>)
    | LobbyCreated(lobbyId: string, lobbyName: Value)
    | LobbyList(lobbies: seq<LobbySummary>)
    | JoinResult(result: string)

  /** One attempted `sendall` of a message to a connection. */
  datatype Send<M> = Send(to: Conn, msg: M)

  /** `for client in clients: sendall(message)`: one send per client, in the
      clients' order. */
  function Fanout<M>(clients: seq<Conn>, msg: M): (out: seq<Send<M>>)
    ensures |out| == |clients|
    ensures forall i :: 0 <= i < |out| ==> out[i] == Send(clients[i], msg)
  {
    if clients == [] then [] else [Send(clients[0], msg)] + Fanout(clients[1..], msg)
  }

  /** The sends that reach their peer when the sockets in `failing` raise:
      every send sits in its own `try`, so a failure is logged and the loop
      goes on with the next peer. */
  function Delivered<M>(out: seq<Send<M>>, failing: set<Conn>): seq<Send<M>>
  {
    if out == [] then []
    else (if out[0].to in failing then [] else [out[0]]) + Delivered(out[1..], failing)
  }

  /** A send is delivered exactly when it was attempted and its own peer did
      not fail: one failing peer never costs another its message. */
  lemma {:induction false} DeliveredExactly<M>(out: seq<Send<M>>, failing: set<Conn>)
    ensures forall s :: s in Delivered(out, failing) <==> s in out && s.to !in failing
  {
    if out != [] {
      DeliveredExactly(out[1..], failing);
      assert out == [out[0]] + out[1..];
    }
  }

  /** Delivery of a concatenated outbox is the concatenation of deliveries. */
  lemma {:induction false} DeliveredAppend<M>(a: seq<Send<M>>, b: seq<Send<M>>, failing: set<Conn>)
    ensures Delivered(a + b, failing) == Delivered(a, failing) + Delivered(b, failing)
  {
    if a == [] {
      assert a + b == b;
    } else {
      assert (a + b)[1..] == a[1..] + b;
      DeliveredAppend(a[1..], b, failing);
    }
  }
}

=== FILE: registry.dfy ===
/** The session registry of the lobby server's accept loop: every accepted
    connection gets the next player id, a start position, an `init` reply and
    a roster fan-out. The prototype server under NETWORKING/ runs the same
    accept loop. */
module Registry {
  import opened Protocol

  /** `clients` (socket -> player id, in insertion order), `players`
      (player id -> position), the id counter, and the sockets already closed. */
  datatype Server = Server(
    clients: seq<Conn>,
    ids: map<Conn, int>,
    players: map<int, Pos>,
    nextId: int,
    closed: set<Conn>)

  /** The state the constructor sets up: no sessions, counter at 1. */
  function Initial(): (s: Server)
    ensures Valid(s) && s.clients == [] && s.nextId == 1
  {
    Server([], map[], map[], 1, {})
  }

  /** Registry invariant: clients are distinct and are exactly the keys of
      `ids`; every id is below the counter, has a roster entry, and belongs
      to exactly one session. */
  ghost predicate Valid(s: Server)
  {
    && 1 <= s.nextId
    && (forall i, j :: 0 <= i < j < |s.clients| ==> s.clients[i] != s.clients[j])
    && (forall c :: c in s.ids <==> c in s.clients)
    && (forall c :: c in s.ids ==> 1 <= s.ids[c] < s.nextId && s.ids[c] in s.players)
    && (forall c, d :: c in s.ids && d in s.ids && c != d ==> s.ids[c] != s.ids[d])
    && s.closed <= s.ids.Keys
  }

  datatype Accepted = Accepted(server: Server, out: seq<Send<Reply>>)

  /** The registry part of one accept: `c` appended to the sessions with the
      counter's value as its id, that id placed at [0, 0], the counter advanced. */
  function Admit(s: Server, c: Conn): Server
  {
    Server(s.clients + [c], s.ids[c := s.nextId], s.players[s.nextId := Pos(0, 0)], s.nextId + 1, s.closed)
  }

  /** One pass of the accept loop for a freshly accepted socket `c`. */
  function Accept(s: Server, c: Conn): (r: Accepted)
    requires c !in s.ids
    ensures c in r.server.ids && r.server.ids[c] == s.nextId
    ensures forall d :: d in s.ids ==> d in r.server.ids && r.server.ids[d] == s.ids[d]
    ensures r.server.ids.Keys == s.ids.Keys + {c}
    ensures s.nextId in r.server.players && r.server.players[s.nextId] == Pos(0, 0)
    ensures forall p :: p in s.players && p != s.nextId ==> p in r.server.players && r.server.players[p] == s.players[p]
    ensures r.server.nextId == s.nextId + 1
    ensures r.server.closed == s.closed
    ensures |r.out| == |s.clients| + 2
    ensures r.out[0] == Send(c, Init(s.nextId, r.server.players))
    ensures r.server.clients == s.clients + [c]
    ensures forall d :: d in r.server.clients ==> Send(d, UpdatePlayers(r.server.players)) in r.out[1..]
  {
    var players := s.players[s.nextId := Pos(0, 0)];
    var clients := s.clients + [c];
    var fanout := Fanout(clients, UpdatePlayers(players));
    assert forall d :: d in clients ==> Send(d, UpdatePlayers(players)) in fanout by {
      forall d | d in clients ensures Send(d, UpdatePlayers(players)) in fanout {
        var i :| 0 <= i < |clients| && clients[i] == d;
        assert fanout[i] == Send(d, UpdatePlayers(players));
      }
    }
    Accepted(Admit(s, c), [Send(c, Init(s.nextId, players))] + fanout)
  }

  /** Accepting a fresh socket keeps the registry invariant. */
  lemma AcceptPreservesValid(s: Server, c: Conn)
    requires Valid(s) && c !in s.ids
    ensures Valid(Accept(s, c).server)
  {
    AcceptKeepsClientsDistinct(s, c);
    AcceptKeepsIdsOfClients(s, c);
    AcceptKeepsIdsPlaced(s, c);
    AcceptKeepsIdsDistinct(s, c);
    var t := Admit(s, c);
    assert t.closed <= t.ids.Keys;
    assert Valid(t);
  }

  lemma AcceptKeepsIdsOfClients(s: Server, c: Conn)
    requires Valid(s) && c !in s.ids
    ensures var t := Admit(s, c);
            forall d :: d in t.ids <==> d in t.clients
  {
    var t := Admit(s, c);
    forall d | d in t.ids ensures d in t.clients {
      if d != c {
        var i :| 0 <= i < |s.clients| && s.clients[i] == d;
        assert t.clients[i] == d;
      } else {
        assert t.clients[|t.clients| - 1] == c;
      }
    }
  }

  lemma AcceptKeepsIdsPlaced(s: Server, c: Conn)
    requires Valid(s) && c !in s.ids
    ensures var t := Admit(s, c);
            forall d :: d in t.ids ==> 1 <= t.ids[d] < t.nextId && t.ids[d] in t.players
  {
    var t := Admit(s, c);
    forall d | d in t.ids ensures 1 <= t.ids[d] < t.nextId && t.ids[d] in t.players {
      if d != c {
        assert s.ids[d] < s.nextId && s.ids[d] in s.players;
      }
    }
  }

  lemma AcceptKeepsIdsDistinct(s: Server, c: Conn)
    requires Valid(s) && c !in s.ids
    ensures var t := Admit(s, c);
            forall d, e :: d in t.ids && e in t.ids && d != e ==> t.ids[d] != t.ids[e]
  {
    var t := Admit(s, c);
    forall d, e | d in t.ids && e in t.ids && d != e ensures t.ids[d] != t.ids[e] {
      if d != c && e != c {
        assert s.ids[d] != s.ids[e];
      } else if d != c {
        assert s.ids[d] < s.nextId;
      } else {
        assert s.ids[e] < s.nextId;
      }
    }
  }

  lemma AcceptKeepsClientsDistinct(s: Server, c: Conn)
    requires Valid(s) && c !in s.ids
    ensures var t := Admit(s, c);
            forall i, j :: 0 <= i < j < |t.clients| ==> t.clients[i] != t.clients[j]
  {
    var t := Admit(s, c);
    assert c !in s.clients;
    forall i, j | 0 <= i < j < |t.clients| ensures t.clients[i] != t.clients[j] {
      if j == |t.clients| - 1 {
        assert t.clients[i] == s.clients[i];
      } else {
        assert t.clients[i] == s.clients[i] && t.clients[j] == s.clients[j];
      }
    }
  }

  /** The accept loop over a series of fresh sockets. */
  function AcceptAll(s: Server, conns: seq<Conn>): (t: Server)
    requires forall i :: 0 <= i < |conns| ==> conns[i] !in s.ids
    requires forall i, j :: 0 <= i < j < |conns| ==> conns[i] != conns[j]
    ensures t.nextId == s.nextId + |conns|
    ensures forall d :: d in s.ids ==> d in t.ids && t.ids[d] == s.ids[d]
    ensures forall i :: 0 <= i < |conns| ==> conns[i] in t.ids
    ensures forall p :: p in s.players && p < s.nextId ==> p in t.players && t.players[p] == s.players[p]
    decreases |conns|
  {
    if conns == [] then s
    else
      var t := Admit(s, conns[0]);
      var rest := conns[1..];
      assert forall i :: 0 <= i < |rest| ==> rest[i] !in t.ids by {
        forall i | 0 <= i < |rest| ensures rest[i] !in t.ids {
          assert rest[i] == conns[i + 1];
        }
      }
      assert forall i, j :: 0 <= i < j < |rest| ==> rest[i] != rest[j] by {
        forall i, j | 0 <= i < j < |rest| ensures rest[i] != rest[j] {
          assert rest[i] == conns[i + 1] && rest[j] == conns[j + 1];
        }
      }
      AcceptAll(t, rest)
  }

  /** Session ids are handed out consecutively: the i-th accepted socket gets
      the counter's value plus i, so ids are distinct and strictly increasing
      in acceptance order, and every new player starts at [0, 0]. */
  lemma {:induction false} AcceptAllIds(s: Server, conns: seq<Conn>)
    requires forall i :: 0 <= i < |conns| ==> conns[i] !in s.ids
    requires forall i, j :: 0 <= i < j < |conns| ==> conns[i] != conns[j]
    ensures var t := AcceptAll(s, conns);
            forall i :: 0 <= i < |conns| ==>
              && t.ids[conns[i]] == s.nextId + i
              && t.ids[conns[i]] in t.players
              && t.players[t.ids[conns[i]]] == Pos(0, 0)
    decreases |conns|
  {
    if conns != [] {
      var t := Admit(s, conns[0]);
      var rest := conns[1..];
      assert forall i :: 0 <= i < |rest| ==> rest[i] !in t.ids by {
        forall i | 0 <= i < |rest| ensures rest[i] !in t.ids {
          assert rest[i] == conns[i + 1];
        }
      }
      AcceptAllIds(t, rest);
      var u := AcceptAll(t, rest);
      assert u == AcceptAll(s, conns);
      forall i | 0 <= i < |conns|
        ensures u.ids[conns[i]] == s.nextId + i
        ensures u.ids[conns[i]] in u.players && u.players[u.ids[conns[i]]] == Pos(0, 0)
      {
        if i == 0 {
          assert t.ids[conns[0]] == s.nextId;
          assert s.nextId in t.players && s.nextId < t.nextId;
        } else {
          assert conns[i] == rest[i - 1];
        }
      }
    }
  }

  /** From a fresh server the ids are 1, 2, 3, ... in acceptance order. */
  lemma FromStartIdsConsecutive(conns: seq<Conn>)
    requires forall i, j :: 0 <= i < j < |conns| ==> conns[i] != conns[j]
    ensures var t := AcceptAll(Initial(), conns);
            forall i, j :: 0 <= i < j < |conns| ==> 0 < t.ids[conns[i]] < t.ids[conns[j]]
  {
    AcceptAllIds(Initial(), conns);
  }

  /** End of a session's receive loop: only that socket is closed. Its entry
      in `clients` is kept (the removal is commented out in the source). */
  function EndSession(s: Server, c: Conn): (t: Server)
    ensures t.closed == s.closed + {c}
    ensures t.clients == s.clients && t.ids == s.ids && t.players == s.players && t.nextId == s.nextId
  {
    s.(closed := s.closed + {c})
  }

  /** A closed session stays registered, so later fan-outs still address it;
      its send fails, and every open session is still served. */
  lemma StaleSessionStillAddressed(s: Server, c: Conn, d: Conn)
    requires c in s.clients && d !in s.ids
    ensures var t := EndSession(s, c);
            var r := Accept(t, d);
            && Send(c, UpdatePlayers(r.server.players)) in r.out
            && forall e :: e in r.server.clients && e !in t.closed ==>
                 Send(e, UpdatePlayers(r.server.players)) in Delivered(r.out, t.closed)
  {
    var t := EndSession(s, c);
    var r := Accept(t, d);
    DeliveredExactly(r.out, t.closed);
    forall e | e in r.server.clients && e !in t.closed
      ensures Send(e, UpdatePlayers(r.server.players)) in r.out
    {
      assert Send(e, UpdatePlayers(r.server.players)) in r.out[1..];
    }
    assert Send(c, UpdatePlayers(r.server.players)) in r.out[1..];
  }
}

=== FILE: scenes.dfy ===
/** The application loop's scene management: a stack of scenes whose top is
    updated every frame, and the dispatch of the `(action, payload)` result
    an update returns. */
module Scenes {
  import opened Wrappers
  import opened Stacks

  /** The scenes the modelled pages hand to the loop. */
  datatype Scene = StartMenu | Game | LobbyUI

  /** An update's result `(action, payload)`; the payload is `None` for
      "POP" and "QUIT" results. */
  datatype Command = Command(action: string, payload: Option<Scene>)

  /** The scene stack (a pushed `None` payload is stored as is) and the
      loop's `running` flag. */
  datatype App = App(scenes: Stack<Option<Scene>>, running: bool)

  /** The constructor: the start menu alone on the stack. */
  function Initial(): (a: App)
    ensures |a.scenes.items| == 1 && Peek(a.scenes) == Ok(Some(StartMenu)) && a.running
  {
    App(Push(New(), Some(StartMenu)), true)
  }

  /** One frame's dispatch of the current scene's result. POP and REPLACE on
      an empty stack raise IndexError out of the loop. */
  function Dispatch(a: App, result: Option<Command>): (r: Result<App>)
    ensures result.None? ==> r == Ok(a)
    ensures r.Ok? && !(result.Some? && result.value.action == "QUIT") ==> r.value.running == a.running
    ensures result.Some? && result.value.action == "PUSH" ==>
      r.Ok? && r.value.scenes == Push(a.scenes, result.value.payload)
    ensures result.Some? && result.value.action == "POP" ==>
      (r.Ok? <==> a.scenes.items != []) &&
      (r.Ok? ==> Push(r.value.scenes, Peek(a.scenes).value) == a.scenes)
    ensures result.Some? && result.value.action == "REPLACE" ==>
      (r.Ok? <==> a.scenes.items != []) &&
      (r.Ok? ==> (&& |r.value.scenes.items| == |a.scenes.items|
                  && Peek(r.value.scenes) == Ok(result.value.payload)
                  && r.value.scenes.items[..|a.scenes.items| - 1] == a.scenes.items[..|a.scenes.items| - 1]))
    ensures result.Some? && result.value.action == "QUIT" ==> r == Ok(a.(running := false))
    ensures result.Some? && result.value.action !in {"PUSH", "POP", "REPLACE", "QUIT"} ==> r == Ok(a)
    ensures r.Raised? ==> r.error == IndexError
  {
    match result
    case None => Ok(a)
    case Some(Command(action, payload)) =>
      if action == "PUSH" then Ok(a.(scenes := Push(a.scenes, payload)))
      else if action == "POP" then
        match Pop(a.scenes)
        case Raised(e) => Raised(e)
        case Ok((rest, _)) => Ok(a.(scenes := rest))
      else if action == "REPLACE" then
        match Pop(a.scenes)
        case Raised(e) => Raised(e)
        case Ok((rest, _)) => Ok(a.(scenes := Push(rest, payload)))
      else if action == "QUIT" then Ok(a.(running := false))
      else Ok(a)
  }

  /** A scene that was pushed and then pops itself returns the loop to the
      scene beneath it, exactly as before. */
  lemma PushThenPopRestores(a: App, s: Scene)
    ensures Dispatch(Dispatch(a, Some(Command("PUSH", Some(s)))).value, Some(Command("POP", None))) == Ok(a)
  {
    PushThenPop(a.scenes, Some(s));
  }

  /** Popping the start menu empties the stack, so the next frame's `peek`
      raises IndexError. */
  lemma PoppingLastSceneStopsLoop()
    ensures var r := Dispatch(Initial(), Some(Command("POP", None)));
            r.Ok? && IsEmpty(r.value.scenes) && Peek(r.value.scenes).Raised?
  {
  }

  /** REPLACE is POP followed by PUSH, and never changes the depth. */
  lemma ReplaceIsPopPush(a: App, payload: Option<Scene>)
    requires !IsEmpty(a.scenes)
    ensures var r := Dispatch(a, Some(Command("REPLACE", payload)));
            && r.Ok?
            && r == Dispatch(Dispatch(a, Some(Command("POP", None))).value, Some(Command("PUSH", payload)))
            && |r.value.scenes.items| == |a.scenes.items|
  {
  }
}

=== FILE: stacks.dfy ===
/** The stack ADT that holds the application's scenes. */
module Stacks {
  import opened Wrappers

  /** The items, bottom first. */
  datatype Stack<T> = Stack(items: seq<T>)

  function New<T>(): (s: Stack<T>)
    ensures IsEmpty(s)
  {
    Stack([])
  }

  /** `push(x)`: `x` becomes the top. */
  function Push<T>(s: Stack<T>, x: T): (r: Stack<T>)
    ensures |r.items| == |s.items| + 1
    ensures r.items[..|s.items|] == s.items && r.items[|s.items|] == x
  {
    Stack(s.items + [x])
  }

  /** `pop()`: removes and returns the top; an empty stack raises IndexError. */
  function Pop<T>(s: Stack<T>): (r: Result<(Stack<T>, T)>)
    ensures r.Raised? <==> s.items == []
    ensures r.Raised? ==> r.error == IndexError
    ensures r.Ok? ==> r.value.0.items + [r.value.1] == s.items
  {
    if s.items == [] then Raised(IndexError)
    else Ok((Stack(s.items[..|s.items| - 1]), s.items[|s.items| - 1]))
  }

  /** `peek()`: the top, without removing it; an empty stack raises IndexError. */
  function Peek<T>(s: Stack<T>): (r: Result<T>)
    ensures r.Raised? <==> s.items == []
    ensures r.Raised? ==> r.error == IndexError
    ensures r.Ok? ==> r.value == s.items[|s.items| - 1]
  {
    if s.items == [] then Raised(IndexError) else Ok(s.items[|s.items| - 1])
  }

  /** `is_empty()`. */
  predicate IsEmpty<T>(s: Stack<T>): (b: bool)
    ensures b <==> Peek(s).Raised?
  {
    |s.items| == 0
  }

  /** Emptiness is exactly the case where `pop` and `peek` raise. */
  lemma EmptyIffNothingToTake<T>(s: Stack<T>)
    ensures IsEmpty(s) <==> Pop(s).Raised?
    ensures IsEmpty(s) <==> Peek(s).Raised?
  {
  }

  /** What was just pushed is on top. */
  lemma PushThenPeek<T>(s: Stack<T>, x: T)
    ensures Peek(Push(s, x)) == Ok(x)
    ensures !IsEmpty(Push(s, x))
  {
  }

  /** Popping right after a push returns the pushed item and the stack as it
      was before. */
  lemma PushThenPop<T>(s: Stack<T>, x: T)
    ensures Pop(Push(s, x)) == Ok((s, x))
  {
    assert Push(s, x).items[..|s.items|] == s.items;
  }

  /** Peeking agrees with popping and leaves the stack as it was. */
  lemma PeekIsPopWithoutRemoval<T>(s: Stack<T>)
    requires !IsEmpty(s)
    ensures Peek(s) == Ok(Pop(s).value.1)
    ensures Push(Pop(s).value.0, Peek(s).value) == s
  {
  }

  /** Pushing several items in order. */
  function PushAll<T>(s: Stack<T>, xs: seq<T>): (r: Stack<T>)
    ensures r.items == s.items + xs
    decreases |xs|
  {
    if xs == [] then s else PushAll(Push(s, xs[0]), xs[1..])
  }

  /** Popping `n` times, collecting what comes off, in pop order. */
  function PopN<T>(s: Stack<T>, n: nat): (r: Result<(Stack<T>, seq<T>)>)
    decreases n
  {
    if n == 0 then Ok((s, []))
    else match Pop(s)
      case Raised(e) => Raised(e)
      case Ok((t, x)) =>
        match PopN(t, n - 1)
        case Raised(e) => Raised(e)
        case Ok((u, ys)) => Ok((u, [x] + ys))
  }

  /** The items come back in reverse order of pushing. */
  function Reverse<T>(xs: seq<T>): (r: seq<T>)
    ensures |r| == |xs|
    ensures forall i :: 0 <= i < |xs| ==> r[i] == xs[|xs| - 1 - i]
  {
    if xs == [] then [] else [xs[|xs| - 1]] + Reverse(xs[..|xs| - 1])
  }

  /** Last in, first out: pushing `xs` and popping as many items returns
      them reversed and restores the stack. */
  lemma {:induction false} LastInFirstOut<T>(s: Stack<T>, xs: seq<T>)
    ensures PopN(PushAll(s, xs), |xs|) == Ok((s, Reverse(xs)))
    decreases |xs|
  {
    if xs != [] {
      var init := xs[..|xs| - 1];
      var last := xs[|xs| - 1];
      assert xs == init + [last];
      var below := PushAll(s, init);
      assert PushAll(s, xs) == Push(below, last);
      PushThenPop(below, last);
      LastInFirstOut(s, init);
    }
  }
}

=== FILE: transport.dfy ===
/** The transport-layer setting every server and client constructor checks:
    `TRANSPORT_LAYER.strip().upper()` must name one of the two socket kinds. */
module Transport {
  import opened Wrappers

  /** `socket.SOCK_STREAM` and `socket.SOCK_DGRAM`. */
  datatype Kind = Stream | Datagram

  /** The characters Python's `str.isspace` accepts, which `strip()` removes. */
  predicate IsSpace(c: char)
  {
    c == ' ' || ('\t' <= c <= '\r') || ('\U{1c}' <= c <= '\U{1f}')
    || c == '\U{85}' || c == '\U{a0}' || c == '\U{1680}'
    || ('\U{2000}' <= c <= '\U{200a}') || c == '\U{2028}' || c == '\U{2029}'
    || c == '\U{202f}' || c == '\U{205f}' || c == '\U{3000}'
  }

  /** `s.lstrip()`. */
  function StripLeft(s: string): (r: string)
    ensures |r| <= |s| && r == s[|s| - |r|..]
    ensures forall i :: 0 <= i < |s| - |r| ==> IsSpace(s[i])
    ensures r == "" || !IsSpace(r[0])
  {
    if s != [] && IsSpace(s[0]) then StripLeft(s[1..]) else s
  }

  /** `s.rstrip()`. */
  function StripRight(s: string): (r: string)
    ensures |r| <= |s| && r == s[..|r|]
    ensures forall i :: |r| <= i < |s| ==> IsSpace(s[i])
    ensures r == "" || !IsSpace(r[|r| - 1])
  {
    if s != [] && IsSpace(s[|s| - 1]) then StripRight(s[..|s| - 1]) else s
  }

  /** The length of the run of whitespace `s` starts with. */
  function Lead(s: string): (n: nat)
    ensures n <= |s|
    ensures forall k :: 0 <= k < n ==> IsSpace(s[k])
    ensures n < |s| ==> !IsSpace(s[n])
  {
    if s != [] && IsSpace(s[0]) then 1 + Lead(s[1..]) else 0
  }

  /** `lstrip()` drops exactly the leading run of whitespace. */
  lemma LeadStripped(s: string)
    ensures |s| - |StripLeft(s)| == Lead(s)
  {
    var l := StripLeft(s);
    var a := |s| - |l|;
    if a < |s| {
      assert s[a] == l[0];
    }
  }

  /** Neither end of `s` is whitespace. */
  predicate Trimmed(s: string)
  {
    s == "" || (!IsSpace(s[0]) && !IsSpace(s[|s| - 1]))
  }

  /** `s` is whitespace throughout. */
  predicate Blank(s: string)
  {
    forall k :: 0 <= k < |s| ==> IsSpace(s[k])
  }

  /** `s.strip()`: what is left once the leading and the trailing runs of
      whitespace are dropped. */
  function Strip(s: string): (r: string)
    ensures |r| <= |s|
    ensures Trimmed(r)
  {
    var l := StripLeft(s);
    var r := StripRight(l);
    StripEnds(l, r);
    r
  }

  /** What `strip()` keeps starts where the leading whitespace ends. */
  lemma StripStartsAfterLead(s: string)
    ensures Strip(s) <= s[Lead(s)..]
  {
    var l := StripLeft(s);
    assert Strip(s) == StripRight(l);
    LeadStripped(s);
  }

  /** Everything `strip()` drops after the kept middle is whitespace. */
  lemma StripDropsTrailing(s: string)
    ensures |Strip(s)| <= |s[Lead(s)..]| && Blank(s[Lead(s)..][|Strip(s)|..])
  {
    var l := StripLeft(s);
    var r := StripRight(l);
    assert Strip(s) == r;
    LeadStripped(s);
    assert l == s[Lead(s)..];
    TailBlank(l, r);
  }

  /** What `rstrip()` drops is whitespace. */
  lemma TailBlank(l: string, r: string)
    requires |r| <= |l| && forall k :: |r| <= k < |l| ==> IsSpace(l[k])
    ensures Blank(l[|r|..])
  {
    var tail := l[|r|..];
    forall k | 0 <= k < |tail| ensures IsSpace(tail[k]) {
      assert tail[k] == l[|r| + k];
    }
  }

  /** A prefix of a string that starts with no whitespace starts with none. */
  lemma StripEnds(l: string, r: string)
    requires l == "" || !IsSpace(l[0])
    requires |r| <= |l| && r == l[..|r|]
    requires r == "" || !IsSpace(r[|r| - 1])
    ensures Trimmed(r)
  {
    if r != "" {
      assert r[0] == l[0];
    }
  }

  /** `s.upper()` on the ASCII letters. */
  function Upper(s: string): (r: string)
    ensures |r| == |s|
    ensures forall i :: 0 <= i < |s| ==>
      r[i] == (if 'a' <= s[i] <= 'z' then (s[i] as int - 32) as char else s[i])
  {
    if s == [] then []
    else [if 'a' <= s[0] <= 'z' then (s[0] as int - 32) as char else s[0]] + Upper(s[1..])
  }

  /** The constructors' check: the normalised name must be a key of the
      `LAYERS` table, otherwise `ValueError` is raised before any socket exists. */
  function Select(layer: string): (r: Result<Kind>)
    ensures r == Ok(Stream) <==> Upper(Strip(layer)) == "TCP"
    ensures r == Ok(Datagram) <==> Upper(Strip(layer)) == "UDP"
    ensures r.Raised? <==> Upper(Strip(layer)) !in {"TCP", "UDP"}
    ensures r.Raised? ==> r.error == ValueError
  {
    var name := Upper(Strip(layer));
    if name == "TCP" then Ok(Stream)
    else if name == "UDP" then Ok(Datagram)
    else Raised(ValueError)
  }

  /** Surrounding whitespace and letter case do not matter. */
  lemma LooseSpellingAccepted()
    ensures Select(" tcp\n") == Ok(Stream)
    ensures Select("Udp") == Ok(Datagram)
  {
    StrippedTcp();
    UpperTcp();
    StrippedUdp();
    UpperUdp();
  }

  lemma StrippedTcp()
    ensures Strip(" tcp\n") == "tcp"
  {
    assert " tcp\n"[1..] == "tcp\n";
    StripLeftStops("tcp\n");
    assert StripLeft(" tcp\n") == "tcp\n";
    assert "tcp\n"[..3] == "tcp";
    StripRightStops("tcp");
  }

  lemma UpperTcp()
    ensures Upper("tcp") == "TCP"
  {
    var t := Upper("tcp");
    assert t[0] == 'T' && t[1] == 'C' && t[2] == 'P';
  }

  lemma StrippedUdp()
    ensures Strip("Udp") == "Udp"
  {
    StripLeftStops("Udp");
    StripRightStops("Udp");
  }

  lemma UpperUdp()
    ensures Upper("Udp") == "UDP"
  {
    var u := Upper("Udp");
    assert u[0] == 'U' && u[1] == 'D' && u[2] == 'P';
  }

  lemma StripLeftStops(s: string)
    requires s != [] && !IsSpace(s[0])
    ensures StripLeft(s) == s
  {
  }

  lemma StripRightStops(s: string)
    requires s != [] && !IsSpace(s[|s| - 1])
    ensures StripRight(s) == s
  {
  }

  /** The prototype server's default `type_of_conn=""` is rejected, as is any
      other name, however close. */
  lemma OtherNamesRejected()
    ensures Select("") == Raised(ValueError)
    ensures Select("TCPX") == Raised(ValueError)
    ensures Select("T CP") == Raised(ValueError)
  {
    assert StripLeft("TCPX") == "TCPX";
    assert StripRight("TCPX") == "TCPX";
    assert |Upper("TCPX")| == 4;
    assert StripLeft("T CP") == "T CP";
    assert StripRight("T CP") == "T CP";
    assert |Upper("T CP")| == 4;
  }
}

=== FILE: wrappers.dfy ===
/** Small failure-carrying datatypes shared by every module of the model. */
module Wrappers {

  /** Python's optional value: `None` or a present value. */
  datatype Option<+T> = None | Some(value: T)

  /** The outcome of a Python call that either returns a value or raises. */
  datatype Result<+T> = Ok(value: T) | Raised(error: Error)

  /** The exception classes the modelled code raises or catches. */
  datatype Error =
    | ValueError
    | KeyError
    | TypeError
    | IndexError
    | AttributeError
    | OSError
    | OverflowError
}
